=== FILE: README.md ===
# dokaben_rap verse generator, modelled in Dafny

dokaben_rap writes rap lines with a trigram Markov chain. Its table `chain_freqs` holds
rows `(prefix1, prefix2, suffix, freq)`, taken from a corpus whose lines are framed by
the sentinels BEGIN and END.

**Forward mode.** The generator starts a line from a row opening with BEGIN. It picks
the row whose text holds one of the request's content words (or a word-vector neighbour
of one), and falls back to a frequency-weighted draw when none does. It then appends
weighted suffixes until END.

**Reverse mode.** It draws an anchor phrase (the "killer phrase") and turns the request
into seed words: pronouns swapped, empty words and one 'ん' dropped, the list shuffled.
After each seed come up to three word-vector neighbours, ranked by how well they rhyme
with the anchor. From each seed it walks *backwards*, prepending prefixes until BEGIN.
It then keeps the line whose distance to the anchor, as the rhyme meter scores it, is
strictly greatest, and appends the anchor after a line break.

**Rhyme meter.** It counts the matching vowels at the end of two lines, or at the start
when the last vowels differ. It ranks candidate words by that count, and composes the
count with a semantic similarity and a length ratio into a distance.

The Dafny modules follow the two source files:

| module | file | contents |
|---|---|---|
| `Outcomes` | outcomes.dfy | `Option`, `Result` and the exceptions the source can raise, as values |
| `Randomness` | random.dfy | the `random` module: a stream of raw draws, `randbelow`, `shuffle` |
| `Text` | text.dfy | Python's `in`, `str.replace` and `"".join` on strings |
| `Words` | words.dfy | the pronoun swap and the clean-up of candidate words |
| `Chain` | chain.dfy | the table, its two lookups, the weighted index list, linked token lists |
| `Ranking` | ranking.dfy | the dictionary of `most_rhyming`, its stable descending sort and top-n cut |
| `RhymeDistance` | rhyme.dfy | `count_rhyme`, `len_rate`, `most_rhyming`, `throw` (class `RhymeDistanceMeter`) |
| `Generation` | generate.dfy | the class `GenerateText`: lookups, draws, walks, seed expansion, best-line pick |

How the model represents the source:

- **Objects and state.** `GenerateText` and `RhymeDistanceMeter` are classes. The fields
  the source mutates (`req_word`, `first_prefix`) are `var` fields, and the methods that
  set them declare `modifies this`.
- **Randomness.** The process-wide random state is a `Random` object: a fixed stream of
  raw draws plus a counter of the draws used. `Below`, `ProbableTriplet`, `Triplet`,
  `TripletReverse`, `FirstTripletReverse`, `Choose` and `IntensiveTriplet` say which raw
  draw they used and how far the counter moved. `Shuffle` and `WordCandidates` say how far
  the counter moved, not how the draws order the result. The walks and `Generate` do not
  count their draws.
- **Walk invariant.** Every line the model produces comes with its token list as a ghost
  result. The contract states that every window of three consecutive tokens is a stored
  row. Over a table built from sentinel-framed lines, the line therefore holds no
  sentinel.

## Model

| member | source | states |
|---|---|---|
| `Randomness.Random.Below` | webapp/modules/GenerateText.py:307 | `random.choice` over a list of length n: a position below n, from the next raw draw; exactly one draw is used |
| `Randomness.Shuffle` | webapp/modules/GenerateText.py:342 | `random.shuffle`: the result is a permutation of the input (same length, same multiset); n-1 draws are used for n > 0 words |
| `Text.Contains` | webapp/modules/GenerateText.py:355 | Python's `t in s`: a text found inside another is no longer than it; `Text.ContainsAt` states what it means |
| `Text.ContainsAt` | webapp/modules/GenerateText.py:355 | `t in s` holds exactly when `t` is the slice of `s` at some position |
| `Text.ReplaceAll` | webapp/modules/GenerateText.py:328-331 | Python's `s.replace(pat, rep)` over non-overlapping occurrences, left to right: a replacement as long as the pattern keeps the length; the `Text.ReplaceAll*` lemmas state its other properties |
| `Text.ReplaceAllInserts` | webapp/modules/GenerateText.py:328-331 | where the pattern occurs, its replacement occurs in the result |
| `Text.ReplaceAllRestored` | webapp/modules/GenerateText.py:328-329 | replacing a character by a pattern and then the pattern by the character gives back a text that held no pattern of its own (for patterns that cannot overlap across a replaced character) |
| `Text.Join` | webapp/modules/GenerateText.py:118 | Python's `"".join`: a one-token list joins to that token (used at lines 118 and 160) |
| `Text.JoinAppend` | webapp/modules/GenerateText.py:118 | joining two token lists one after the other is the concatenation of their joins |
| `Text.ContainsChar` | webapp/modules/GenerateText.py:328 | a one-character pattern occurs in a word exactly when that character does |
| `Text.ReplaceAllIdentity` | webapp/modules/GenerateText.py:328-331 | replacing a pattern that does not occur leaves the word unchanged |
| `Text.ReplaceAllRemovesChar` | webapp/modules/GenerateText.py:328-329 | replacing a character by text that lacks it leaves no occurrence of it |
| `Text.ReplaceAllMarks` | webapp/modules/GenerateText.py:330-331 | replacing a pattern by a character absent from the word puts that character in the result exactly when the pattern occurred |
| `Text.ReplaceAllUndone` | webapp/modules/GenerateText.py:330-331 | replacing a pattern by a fresh character and then that character by the pattern gives back the word |
| `Words.SwapPronoun` | webapp/modules/GenerateText.py:328-331 | the pronoun swap of one word; `Words.FirstPersonSwapped`, `Words.FirstPersonRestored` and `Words.SecondPersonSwapped` state what it does |
| `Words.FirstPersonSwapped` | webapp/modules/GenerateText.py:328-329 | a word holding 俺 comes out with no 俺 left and with an おまえ |
| `Words.FirstPersonRestored` | webapp/modules/GenerateText.py:328-329 | a word holding 俺 but no おまえ comes back when おまえ is turned back into 俺 |
| `Words.SecondPersonSwapped` | webapp/modules/GenerateText.py:330-331 | a word without 俺 comes out holding 俺 exactly when it held おまえ, and turning 俺 back into おまえ restores it |
| `Words.NonEmpty` | webapp/modules/GenerateText.py:336 | `filter(None, …)`: no empty word is left, and every non-empty word is kept as often as it came |
| `Words.RemoveFirst` | webapp/modules/GenerateText.py:341 | the guarded `remove('ん')`: one occurrence fewer when present (length drops by one), the list unchanged when absent |
| `Words.Swapped` | webapp/modules/GenerateText.py:327-332 | the swap loop: one word per base form; `Words.SwappedEach` states which |
| `Words.SwappedEach` | webapp/modules/GenerateText.py:327-332 | entry i of the swapped list is the pronoun swap of base form i |
| `Words.Cleaned` | webapp/modules/GenerateText.py:327-341 | the swapped base forms with empty words dropped and one 'ん' removed; `Words.CleanedCounts` states what it keeps |
| `Words.CleanedCounts` | webapp/modules/GenerateText.py:327-341 | after the swap and the clean-up, each non-empty word is kept as often as it came, except that there is one 'ん' fewer when there was one; no empty word is kept |
| `Ranking.Dedup` | webapp/modules/rhyme_distance_meter.py:31-33 | the keys of the dictionary: the same words as the candidates, each once, no more keys than candidates |
| `Ranking.DedupOrder` | webapp/modules/rhyme_distance_meter.py:31-33 | the keys stay in first-occurrence order of the candidates |
| `Ranking.Sort` | webapp/modules/rhyme_distance_meter.py:35 | the sort is a permutation of the items |
| `Ranking.SortSorted` | webapp/modules/rhyme_distance_meter.py:35 | `sorted(…, reverse=True)` is stable: descending count, and among equal counts earlier insertion first |
| `Ranking.SortedTally` | webapp/modules/rhyme_distance_meter.py:33-35 | sorting `res.items()` gives exactly the dictionary's entries: every key once, with its own score and insertion position, none invented |
| `Ranking.TopRanked` | webapp/modules/rhyme_distance_meter.py:35-37 | the first n keys of the stable descending sort, so at most n words; the `Ranking.TopRanked*` lemmas state its properties |
| `Ranking.TopRankedSize` | webapp/modules/rhyme_distance_meter.py:37 | at most topn words come back (exactly min(topn, #distinct candidates)), and every candidate comes back when there are no more than topn distinct ones |
| `Ranking.TopRankedDistinct` | webapp/modules/rhyme_distance_meter.py:31-37 | the words returned are candidates and none is repeated |
| `Ranking.TopRankedOrder` | webapp/modules/rhyme_distance_meter.py:35-37 | the words come by nonincreasing score; words with equal scores come in first-occurrence order |
| `Ranking.TopRankedCutoff` | webapp/modules/rhyme_distance_meter.py:35-37 | a candidate left out scores no higher than any word returned |
| `RhymeDistance.TailRhyme` | webapp/modules/rhyme_distance_meter.py:55-59 | the tail count never exceeds either vowel sequence's length |
| `RhymeDistance.HeadRhyme` | webapp/modules/rhyme_distance_meter.py:64-68 | the head count never exceeds either vowel sequence's length |
| `RhymeDistance.RhymeCount` | webapp/modules/rhyme_distance_meter.py:51-70 | `count_rhyme` never exceeds the length of the shorter vowel sequence |
| `RhymeDistance.TailRhymeIsLongestCommonSuffix` | webapp/modules/rhyme_distance_meter.py:55-59 | the tail count is k exactly when the last k vowels agree and the match cannot be extended |
| `RhymeDistance.HeadRhymeIsLongestCommonPrefix` | webapp/modules/rhyme_distance_meter.py:64-68 | the head count is k exactly when the first k vowels agree and the match cannot be extended |
| `RhymeDistance.RhymeCountCases` | webapp/modules/rhyme_distance_meter.py:55-70 | when the final vowels match, the count is positive and is the longest common suffix; otherwise it is the longest common prefix |
| `RhymeDistance.TailRhymeSymmetric` | webapp/modules/rhyme_distance_meter.py:55-59 | the tail count does not depend on the order of the two sequences |
| `RhymeDistance.HeadRhymeSymmetric` | webapp/modules/rhyme_distance_meter.py:64-68 | the head count does not depend on the order of the two sequences |
| `RhymeDistance.RhymeCountSymmetric` | webapp/modules/rhyme_distance_meter.py:55-70 | `count_rhyme` is symmetric in its two arguments |
| `RhymeDistance.RhymeCountSelf` | webapp/modules/rhyme_distance_meter.py:55-61 | a vowel sequence rhymes with itself on all of its vowels |
| `RhymeDistance.LenRate` | webapp/modules/rhyme_distance_meter.py:39-40 | the ratio is undefined (ZeroDivisionError) exactly when both lines are empty; otherwise it lies in [0, 1] and equals 1 exactly when the lengths are equal |
| `RhymeDistance.RatioBounds` | webapp/modules/rhyme_distance_meter.py:40 | min over max of two lengths lies in [0, 1] and is 1 exactly when they are equal |
| `RhymeDistance.LenRateSymmetric` | webapp/modules/rhyme_distance_meter.py:39-40 | the ratio does not depend on the order of the two lines |
| `RhymeDistance.RhymeDistanceMeter.constructor` | webapp/modules/rhyme_distance_meter.py:16-21 | the meter keeps its character word and its collaborators |
| `RhymeDistance.RhymeDistanceMeter.TailCount` | webapp/modules/rhyme_distance_meter.py:51-59 | the backward counting loop with its `break` computes the tail count (the longest common vowel suffix) |
| `RhymeDistance.RhymeDistanceMeter.HeadCount` | webapp/modules/rhyme_distance_meter.py:63-68 | the forward counting loop with its `break` computes the head count (the longest common vowel prefix) |
| `RhymeDistance.RhymeDistanceMeter.CountRhyme` | webapp/modules/rhyme_distance_meter.py:42-70 | `count_rhyme` returns the rhyme count of the two vowel sequences; the head loop runs only when the tail count is 0 |
| `RhymeDistance.RhymeDistanceMeter.RhymeCounts` | webapp/modules/rhyme_distance_meter.py:31-33 | the dictionary's keys are the distinct candidates in first-insertion order, and each maps to its rhyme count with the anchor |
| `RhymeDistance.RhymeDistanceMeter.MostRhyming` | webapp/modules/rhyme_distance_meter.py:30-37 | `most_rhyming` returns the top-n ranking of the candidates by rhyme count with the anchor, which the Ranking lemmas characterise |
| `RhymeDistance.RhymeDistanceMeter.Throw` | webapp/modules/rhyme_distance_meter.py:23-28 | `throw` is the distance formula applied to `count_rhyme`, the similarity pair and `len_rate` of the two lines. That count is bounded by both vowel lengths and the ratio lies in [0, 1]. The first of the scorer, the ratio (both lines empty) and the formula to raise decides the failure |
| `Chain.Where` | webapp/modules/GenerateText.py:176-213 | the rows a lookup selects: exactly the table's matching rows, each as often as in the table; that they come in table order is the definition itself, not a proved clause |
| `Chain.Expanded` | webapp/modules/GenerateText.py:299-304 | the `probability` list is as long as the sum of the frequencies, and every entry is a valid chain index |
| `Chain.ExpandedCounts` | webapp/modules/GenerateText.py:302-304 | index i occurs exactly `chains[i].freq` times |
| `Chain.ExpandedSorted` | webapp/modules/GenerateText.py:302-304 | the indices appear in nondecreasing order |
| `Chain.SumFreqZero` | webapp/modules/GenerateText.py:302-307 | the list is empty exactly when every frequency is 0 (including when there are no chains) |
| `Chain.Pick` | webapp/modules/GenerateText.py:299-309 | the weighted choice fails (IndexError of `random.choice`) exactly when the list is empty; otherwise it returns one of the chains, one whose frequency is positive |
| `Chain.LinkedPrepend` | webapp/modules/GenerateText.py:153-157 | prepending the prefix1 of a stored row keyed by the first two tokens keeps every window of three a stored row |
| `Chain.LinkedAppend` | webapp/modules/GenerateText.py:111-115 | appending the suffix of a stored row keyed by the last two tokens keeps every window of three a stored row |
| `Chain.InnerTokensAreWords` | webapp/modules/GenerateText.py:111-118 | over a table built from sentinel-framed lines, no token strictly inside a linked list is BEGIN or END |
| `Generation.Fetch` | webapp/modules/GenerateText.py:183-190 | the row loop keeps exactly the rows the query selects, in table order |
| `Generation.FirstChain` | webapp/modules/GenerateText.py:353-358 | the first chain, in chain order, whose prefix2 or suffix contains the word; none when no chain does |
| `Generation.FirstHit` | webapp/modules/GenerateText.py:349-358 | the double loop's first hit: a word hitting a chain, no earlier word hitting any chain, no earlier chain hit by that word; none when no pair hits |
| `Generation.FirstHitUnique` | webapp/modules/GenerateText.py:349-358 | any pair with the first-hit property is the one the loop returns |
| `Generation.ForwardStart` | webapp/modules/GenerateText.py:106-108 | the first row of a forward line, taken from the BEGIN rows, starts a linked walk |
| `Generation.ForwardStep` | webapp/modules/GenerateText.py:111-115 | appending a suffix keyed by the last two tokens keeps the forward walk linked and its first token fixed |
| `Generation.ForwardLineHasNoSentinel` | webapp/modules/GenerateText.py:111-118 | over a table built from sentinel-framed lines, the tokens of a forward line before its END are neither BEGIN nor END |
| `Generation.ForwardLineShortest` | webapp/modules/GenerateText.py:107-118 | when the first suffix is already END, the line is just the first prefix2 |
| `Generation.ReverseStart` | webapp/modules/GenerateText.py:146-150 | the first row of a backward walk (suffix = word, or END when no row ends in word, END then not kept) starts a linked walk |
| `Generation.ReverseStep` | webapp/modules/GenerateText.py:153-157 | prepending a prefix1 keyed by the first two tokens keeps the backward walk linked |
| `Generation.ReverseLineHasNoSentinel` | webapp/modules/GenerateText.py:153-160 | over a table built from sentinel-framed lines, the tokens of a backward line after its BEGIN are neither BEGIN nor END |
| `Generation.GenerateText.constructor` | webapp/modules/GenerateText.py:40-47 | `req_word` and `first_prefix` start empty and `topn` is 3 |
| `Generation.GenerateText.GetChain` | webapp/modules/GenerateText.py:168-190 | forward lookup: exactly the rows with that prefix1, and that prefix2 when given, in table order |
| `Generation.GenerateText.GetChainReverse` | webapp/modules/GenerateText.py:192-213 | reverse lookup: exactly the rows with that suffix, and that prefix2 when given, in table order |
| `Generation.GenerateText.Probability` | webapp/modules/GenerateText.py:299-304 | the nested loops build the weighted index list |
| `Generation.GenerateText.ProbableTriplet` | webapp/modules/GenerateText.py:292-309 | the chain returned is the one at the drawn position of the weighted list; an empty list fails without consuming a draw |
| `Generation.GenerateText.Triplet` | webapp/modules/GenerateText.py:254-271 | a weighted draw among the rows keyed by both prefixes; the row returned is stored and has those prefixes |
| `Generation.GenerateText.TripletReverse` | webapp/modules/GenerateText.py:273-290 | a weighted draw among the rows with that suffix and prefix2; the row returned is stored and has them |
| `Generation.GenerateText.FirstTripletReverse` | webapp/modules/GenerateText.py:237-252 | a draw among the rows ending in the word, or among the rows ending in END when no row ends in the word; one draw is used when it succeeds |
| `Generation.GenerateText.FindHit` | webapp/modules/GenerateText.py:349-358 | the double loop over words and chains returns the first hit |
| `Generation.GenerateText.SimilarHit` | webapp/modules/GenerateText.py:362-380 | the first word whose neighbour lookup succeeds and whose neighbours hit a chain, with the chain the first hitting neighbour hits first; words whose lookup raises are skipped |
| `Generation.GenerateText.FindSimilarHit` | webapp/modules/GenerateText.py:362-380 | the second double loop returns that similar-word hit |
| `Generation.GenerateText.WordCandidates` | webapp/modules/GenerateText.py:311-344 | the candidates are a permutation of the swapped, non-empty base forms with one 'ん' fewer; the shuffle's draws are accounted for |
| `Generation.GenerateText.Intensive` | webapp/modules/GenerateText.py:346-385 | the chain chosen is one of the chains; a word is recorded exactly when it, or one of its neighbours, hits the chosen chain; the weighted draw happens only when no word and no neighbour hits any chain |
| `Generation.GenerateText.Choose` | webapp/modules/GenerateText.py:349-385 | the three phases return that choice, record the word as `req_word` when one hit (unchanged otherwise), and draw only in the fallback |
| `Generation.GenerateText.IntensiveTriplet` | webapp/modules/GenerateText.py:346-385 | the candidate words and then the intensive choice over them, using the draw that follows the shuffle; the shuffle's draws plus one for a fallback draw are used |
| `Generation.GenerateText.FirstTriplet` | webapp/modules/GenerateText.py:215-235 | the row returned is the intensive choice over the rows opening with BEGIN, for a permutation of the request's cleaned words and the draw after the shuffle; it is a stored BEGIN row whose prefix2 is recorded as `first_prefix`, which is left alone when there is no row |
| `Generation.GenerateText.ForwardFrom` | webapp/modules/GenerateText.py:106-120 | the walk from a stored BEGIN row opens with that row's prefix2 and suffix; every window of three of BEGIN+tokens is stored, END comes only at the end, and the text is the tokens before END joined |
| `Generation.GenerateText.GenerateSentence` | webapp/modules/GenerateText.py:96-120 | the forward line opens with the prefix2 and suffix of the intensive choice among the BEGIN rows (the first triplet), starts at `first_prefix`, and is a forward line of the table; no first triplet means the same failure |
| `Generation.GenerateText.ReverseWalk` | webapp/modules/GenerateText.py:143-160 | the backward line starts with BEGIN and is linked; it ends in the seed when some row ends in it and otherwise runs into END through a stored row; the text is the tokens after BEGIN joined |
| `Generation.GenerateText.Neighbours` | webapp/modules/GenerateText.py:133-136 | at most topn neighbours, all among the word's similar words, and none for a word outside the vocabulary |
| `Generation.GenerateText.Expansion` | webapp/modules/GenerateText.py:128-136 | the seed list is at least as long as the word list |
| `Generation.GenerateText.ExpansionLength` | webapp/modules/GenerateText.py:131-136 | each word brings at most topn neighbours: at most words×(1+topn) seeds |
| `Generation.GenerateText.ExpandWords` | webapp/modules/GenerateText.py:128-136 | the expansion loop builds the seed list: each word followed by its neighbours, in word order |
| `Generation.GenerateText.ReverseWalks` | webapp/modules/GenerateText.py:140-165 | one backward line per seed, in seed order |
| `Generation.GenerateText.GenerateSentencesReverse` | webapp/modules/GenerateText.py:122-165 | the candidate words, their expansion, and one backward line per expanded seed, in seed order |
| `Generation.GenerateText.MaxDistance` | webapp/modules/GenerateText.py:50-61 | fails exactly when some distance fails, with the failure of the first failing text, every earlier text having a distance. The text is None exactly when no distance exceeds -1, and then the distance is -1. Otherwise the result is the earliest text whose distance is strictly greatest, that distance is above -1, and no text exceeds it |
| `Generation.GenerateText.BestLine` | webapp/modules/GenerateText.py:84-85 | the best text followed by a line break and the anchor, with a distance above -1; `None += str` fails exactly when every distance is at most -1 |
| `Generation.GenerateText.Generate` | webapp/modules/GenerateText.py:63-94 | reverse mode: the anchor is one of the phrases, the seeds are the expansion of a permutation of the request's cleaned words, and each candidate is a backward line from its seed. The result is the best line (first among the strictly greatest, distance above -1) with the anchor after a line break; a failure for no text means every distance was at most -1. Forward mode: one forward line with distance 0, starting at `first_prefix`. Reverse mode leaves `req_word` and `first_prefix` as they were |

## Left out

- SQLite (`os.path.exists`/IOError, `connect`, `close`) is replaced by an in-memory sequence of rows. The SQL queries have no ORDER BY, so the model takes table order as the row order.
- The tagger is left out: MeCab parsing, NFKC normalisation and the feature split are a function from the request text to the base forms of its noun and adjective tokens. The debugger break on a failing split is not modelled.
- The word-vector model is left out. Vocabulary membership and the two `most_similar` calls (with and without the character word) are functions. The exception the second one can raise is `None`, and that word is skipped as in the source. The first one (`most_similar(positive=[word, chara_word])`, GenerateText.py:135) is guarded only by `word in vocab` and raises, uncaught, when the character word is outside the vocabulary; the model takes it as total, so that failure of reverse generation is not modelled.
- `score_similarity` (BERTScore) and `calc_dist` are float arithmetic over a foreign scorer. They are opaque functions in the meter that return None where they raise, and the distance is an opaque integer.
- `romanize_sentence` and `vowelize` are a single opaque function from a line to its vowel sequence. `.utils` is not part of this model.
- The literal values of BEGIN and END come from PrepareChain.py, which is not part of this model. The model uses two distinct strings. `WellFormed` states what building the table from sentinel-framed lines guarantees, as an assumption of the lemmas that use it.
- The debugger breaks around the substring tests, logging, the YAML loading of the anchor phrases, model-file loading in the constructors, and the `__main__` block are left out.
- `Generation.GenerateText.GenerateSentence`, `Generation.GenerateText.ReverseWalk`: the source loops have no step bound. The model stops after `maxSteps` steps with `Stalled`. Nothing is claimed about the lines such a bound cuts off.
- Python exceptions are `Err` values. `random.choice` on an empty list gives `EmptyChoice`, a zero-length ratio gives `ZeroDivision`, a raising scorer gives `ScoreFailure`, a raising distance formula gives `DistFailure`, and a best text of `None` gives `NoText` (the TypeError of `None += str`).
- No seed is skipped: an exception raised while walking from any seed propagates out of `_generate_sentences_reverse` and `generate` (GenerateText.py:146-157, 83), so the first failing walk fails the whole reverse generation.
- `Generation.GenerateText.Generate` does not restate, in forward mode, which row the line starts from or what `req_word` became; `Generation.GenerateText.GenerateSentence` states the starting row and `Generation.GenerateText.IntensiveTriplet` states `req_word`.
- `RhymeDistance.RhymeDistanceMeter.Throw`: the scorer is opaque, so when it fails is not modelled. `score_similarity` raises ValueError from `max` whenever neither line has a noun other than the character word (rhyme_distance_meter.py:76-95); the model leaves that to the scorer function returning None. `calc_dist`'s own exceptions (zero to a negative power, overflow) are likewise a None from the formula function.

=== FILE: chain.dfy ===
/** The triplet table the walks run over: its rows, the two lookups, the
    frequency-weighted index list, and what a walk through it looks like. */
module Chain {
  import opened Outcomes

  /** Sentinels opening and closing every corpus line; only their being
      distinct matters here. */
  const Begin: string := "__BEGIN_SENTENCE__"
  const End: string := "__END_SENTENCE__"

  /** A row of `chain_freqs`. */
  datatype Entry = Entry(prefix1: string, prefix2: string, suffix: string, freq: nat)

  /** The WHERE clause of a lookup: forward by `prefix1`, backward by `suffix`,
      each optionally narrowed by `prefix2`. */
  datatype Query =
    | Forward(prefix1: string, second: Option<string>)
    | Reverse(suffix: string, second: Option<string>)

  predicate Matches(e: Entry, q: Query)
  {
    match q
    case Forward(p1, p2) => e.prefix1 == p1 && (p2.Some? ==> e.prefix2 == p2.value)
    case Reverse(s, p2) => e.suffix == s && (p2.Some? ==> e.prefix2 == p2.value)
  }

  /** The rows a query selects, in table order. */
  function Where(table: seq<Entry>, q: Query): (r: seq<Entry>)
    ensures forall e :: e in r <==> e in table && Matches(e, q)
    ensures forall e :: multiset(r)[e] == if Matches(e, q) then multiset(table)[e] else 0
  {
    if |table| == 0 then []
    else
      var last := table[|table| - 1];
      assert table == table[..|table| - 1] + [last];
      Where(table[..|table| - 1], q) + (if Matches(last, q) then [last] else [])
  }

  function SumFreq(chains: seq<Entry>): nat
  {
    if |chains| == 0 then 0 else SumFreq(chains[..|chains| - 1]) + chains[|chains| - 1].freq
  }

  /** `probability`: index i repeated `chains[i].freq` times, in index order. */
  function Expanded(chains: seq<Entry>): (p: seq<nat>)
    ensures |p| == SumFreq(chains)
    ensures forall k :: 0 <= k < |p| ==> p[k] < |chains|
  {
    if |chains| == 0 then []
    else
      var n := |chains| - 1;
      Expanded(chains[..n]) + seq(chains[n].freq, _ => n)
  }

  /** Extending the chains by one extends the list by that chain's block. */
  lemma ExpandedPrefix(chains: seq<Entry>, n: nat)
    requires n < |chains|
    ensures Expanded(chains[..n + 1]) == Expanded(chains[..n]) + seq(chains[n].freq, _ => n)
  {
    assert chains[..n + 1][..n] == chains[..n];
  }

  /** Index i is listed exactly `chains[i].freq` times. */
  lemma {:induction false} ExpandedCounts(chains: seq<Entry>, i: nat)
    requires i < |chains|
    ensures multiset(Expanded(chains))[i] == chains[i].freq
  {
    var n := |chains| - 1;
    var block := seq(chains[n].freq, _ => n);
    if i < n {
      ExpandedCounts(chains[..n], i);
      assert i !in block;
    } else {
      assert i !in Expanded(chains[..n]);
      RepeatCount(n, chains[n].freq);
    }
  }

  lemma {:induction false} RepeatCount(x: nat, m: nat)
    ensures multiset(seq(m, _ => x))[x] == m
  {
    if m > 0 {
      RepeatCount(x, m - 1);
      assert seq(m, _ => x) == seq(m - 1, _ => x) + [x];
    }
  }

  /** The list is in nondecreasing index order. */
  lemma {:induction false} ExpandedSorted(chains: seq<Entry>)
    ensures forall a, b :: 0 <= a <= b < |Expanded(chains)| ==> Expanded(chains)[a] <= Expanded(chains)[b]
  {
    if |chains| > 0 {
      var n := |chains| - 1;
      ExpandedSorted(chains[..n]);
      var p := Expanded(chains[..n]);
      assert Expanded(chains) == p + seq(chains[n].freq, _ => n);
    }
  }

  /** The list is empty exactly when every frequency is zero. */
  lemma {:induction false} SumFreqZero(chains: seq<Entry>)
    ensures SumFreq(chains) == 0 <==> forall k :: 0 <= k < |chains| ==> chains[k].freq == 0
  {
    if |chains| > 0 {
      SumFreqZero(chains[..|chains| - 1]);
    }
  }

  /** `random.choice(probability)` for the raw draw `raw`, then the chain at
      that index; an empty list raises IndexError. */
  function Pick(chains: seq<Entry>, raw: nat): (r: Result<Entry>)
    ensures r.Err? <==> SumFreq(chains) == 0
    ensures r.Err? ==> r.failure == EmptyChoice
    ensures r.Ok? ==> r.value in chains && r.value.freq > 0
  {
    var probability := Expanded(chains);
    if |probability| == 0 then Err(EmptyChoice)
    else
      var i := probability[raw % |probability|];
      ExpandedCounts(chains, i);
      Ok(chains[i])
  }

  /** The (prefix1, prefix2, suffix) triplets stored in the table. */
  ghost function Triples(table: seq<Entry>): set<(string, string, string)>
  {
    set e | e in table :: (e.prefix1, e.prefix2, e.suffix)
  }

  /** Every window of three consecutive tokens is a stored triplet. */
  ghost predicate Linked(table: seq<Entry>, t: seq<string>)
  {
    forall i :: 0 <= i < |t| - 2 ==> (t[i], t[i + 1], t[i + 2]) in Triples(table)
  }

  lemma LinkedPrepend(table: seq<Entry>, e: Entry, t: seq<string>)
    requires Linked(table, t) && |t| >= 2
    requires e in table && e.prefix2 == t[0] && e.suffix == t[1]
    ensures Linked(table, [e.prefix1] + t)
  {
    var t' := [e.prefix1] + t;
    assert (e.prefix1, e.prefix2, e.suffix) in Triples(table);
    forall i | 0 <= i < |t'| - 2 ensures (t'[i], t'[i + 1], t'[i + 2]) in Triples(table) {
      if i > 0 {
        assert (t'[i], t'[i + 1], t'[i + 2]) == (t[i - 1], t[i], t[i + 1]);
      }
    }
  }

  lemma LinkedAppend(table: seq<Entry>, e: Entry, t: seq<string>)
    requires Linked(table, t) && |t| >= 2
    requires e in table && e.prefix1 == t[|t| - 2] && e.prefix2 == t[|t| - 1]
    ensures Linked(table, t + [e.suffix])
  {
    var t' := t + [e.suffix];
    assert (e.prefix1, e.prefix2, e.suffix) in Triples(table);
    forall i | 0 <= i < |t'| - 2 ensures (t'[i], t'[i + 1], t'[i + 2]) in Triples(table) {
      if i < |t| - 2 {
        assert (t'[i], t'[i + 1], t'[i + 2]) == (t[i], t[i + 1], t[i + 2]);
      }
    }
  }

  /** The corpus-consistency invariant of a table built from sentinel-framed
      lines: BEGIN only ever opens a triplet and END only ever closes one. */
  ghost predicate WellFormed(table: seq<Entry>)
  {
    forall e :: e in table ==>
      e.prefix1 != End && e.prefix2 != Begin && e.prefix2 != End && e.suffix != Begin
  }

  /** In a linked token list over a consistent table, every token strictly
      inside the list is the middle of a stored triplet, so not a sentinel. */
  lemma InnerTokensAreWords(table: seq<Entry>, t: seq<string>)
    requires WellFormed(table) && Linked(table, t)
    ensures forall k :: 1 <= k < |t| - 1 ==> t[k] != Begin && t[k] != End
  {
    forall k | 1 <= k < |t| - 1 ensures t[k] != Begin && t[k] != End {
      assert (t[k - 1], t[k], t[k + 1]) in Triples(table);
    }
  }
}

=== FILE: generate.dfy ===
/** The verse generator: chain walks forward and backward over the triplet
    table, the choice of seed words, and the pick of the best candidate line. */
module Generation {
  import opened Outcomes
  import opened Text
  import opened Words
  import opened Chain
  import opened Ranking
  import opened RhymeDistance
  import opened Randomness

  /** A word picks a chain when it is a substring of the chain's prefix2 or suffix. */
  predicate Hits(word: string, c: Entry)
  {
    Contains(c.prefix2, word) || Contains(c.suffix, word)
  }

  /** Position of the first chain a word hits, scanning the chains in order. */
  function FirstChain(word: string, chains: seq<Entry>): (j: Option<nat>)
    ensures j.Some? ==> j.value < |chains| && Hits(word, chains[j.value])
    ensures j.Some? ==> forall j' :: 0 <= j' < j.value ==> !Hits(word, chains[j'])
    ensures j.None? ==> forall j' :: 0 <= j' < |chains| ==> !Hits(word, chains[j'])
  {
    if |chains| == 0 then None
    else if Hits(word, chains[0]) then Some(0)
    else match FirstChain(word, chains[1..])
      case None => None
      case Some(j) => Some(j + 1)
  }

  /** `(i, j)` is the first hit of the double loop: word i hits chain j, no
      earlier word hits any chain, and word i hits no earlier chain. */
  ghost predicate IsFirstHit(keys: seq<string>, chains: seq<Entry>, i: nat, j: nat)
  {
    && i < |keys| && j < |chains| && Hits(keys[i], chains[j])
    && (forall i', j' :: 0 <= i' < i && 0 <= j' < |chains| ==> !Hits(keys[i'], chains[j']))
    && (forall j' :: 0 <= j' < j ==> !Hits(keys[i], chains[j']))
  }

  /** The first (word, chain) pair of the double loop, words outermost. */
  function FirstHit(keys: seq<string>, chains: seq<Entry>): (h: Option<(nat, nat)>)
    ensures h.Some? ==> IsFirstHit(keys, chains, h.value.0, h.value.1)
    ensures h.None? ==> forall i, j :: 0 <= i < |keys| && 0 <= j < |chains| ==> !Hits(keys[i], chains[j])
  {
    if |keys| == 0 then None
    else match FirstChain(keys[0], chains)
      case Some(j) => Some((0, j))
      case None =>
        match FirstHit(keys[1..], chains)
        case None => None
        case Some(h) =>
          assert forall i' :: 1 <= i' <= h.0 ==> keys[i'] == keys[1..][i' - 1];
          Some((h.0 + 1, h.1))
  }

  /** The first hit is determined by its defining property. */
  lemma FirstHitUnique(keys: seq<string>, chains: seq<Entry>, i: nat, j: nat)
    requires IsFirstHit(keys, chains, i, j)
    ensures FirstHit(keys, chains) == Some((i, j))
  {
    var h := FirstHit(keys, chains);
    assert h.Some?;
    var (i', j') := h.value;
    assert !(i' < i) && !(i < i');
    assert !(j' < j) && !(j < j');
  }

  ghost predicate Suffixed(con: seq<Entry>, word: string)
  {
    exists e :: e in con && e.suffix == word
  }

  /** A backward walk from `word` in progress: every window of three tokens is
      stored; the tokens end in `word` when some row ends in it, and otherwise
      they continue into END through a stored row. */
  ghost predicate BackwardWalk(con: seq<Entry>, word: string, t: seq<string>)
  {
    && |t| >= 2 && Linked(con, t)
    && (word != End && Suffixed(con, word) ==> |t| >= 3 && t[|t| - 1] == word)
    && (word == End || !Suffixed(con, word) ==> Linked(con, t + [End]))
  }

  /** A backward walk from `word` that reached BEGIN, read off as `text`, the
      tokens after BEGIN. */
  ghost predicate ReverseLine(con: seq<Entry>, word: string, t: seq<string>, text: string)
  {
    BackwardWalk(con, word, t) && t[0] == Begin && text == Join(t[1..])
  }

  /** A forward walk in progress: every window of three of BEGIN followed by
      the tokens is stored, and END is not among the tokens after the first
      and before the last. */
  ghost predicate ForwardWalk(con: seq<Entry>, t: seq<string>)
  {
    |t| >= 2 && Linked(con, [Begin] + t) && End !in t[1..|t| - 1]
  }

  /** A forward walk that reached END, read off as `text`, everything before END. */
  ghost predicate ForwardLine(con: seq<Entry>, t: seq<string>, text: string)
  {
    ForwardWalk(con, t) && t[|t| - 1] == End && text == Join(t[..|t| - 1])
  }

  /** Over a consistent table, a backward line shows no sentinel after its BEGIN. */
  lemma ReverseLineHasNoSentinel(con: seq<Entry>, word: string, t: seq<string>, text: string)
    requires WellFormed(con) && ReverseLine(con, word, t, text)
    ensures forall k :: 1 <= k < |t| ==> t[k] != Begin && t[k] != End
  {
    InnerTokensAreWords(con, t);
    if word == End || !Suffixed(con, word) {
      InnerTokensAreWords(con, t + [End]);
      assert (t + [End])[|t| - 1] == t[|t| - 1];
    } else {
      assert (t[|t| - 3], t[|t| - 2], t[|t| - 1]) in Triples(con);
    }
  }

  /** Over a consistent table, a forward line shows no sentinel before its END. */
  lemma ForwardLineHasNoSentinel(con: seq<Entry>, t: seq<string>, text: string)
    requires WellFormed(con) && ForwardLine(con, t, text)
    ensures forall k :: 0 <= k < |t| - 1 ==> t[k] != Begin && t[k] != End
  {
    InnerTokensAreWords(con, [Begin] + t);
    forall k | 0 <= k < |t| - 1 ensures t[k] != Begin && t[k] != End {
      assert ([Begin] + t)[k + 1] == t[k];
    }
  }

  /** When the first suffix is already END the line is the first prefix2 alone. */
  lemma ForwardLineShortest(con: seq<Entry>, t: seq<string>, text: string)
    requires ForwardLine(con, t, text) && t[1] == End
    ensures |t| == 2 && text == t[0]
  {
    assert t[1] in t[1..|t| - 1] || |t| == 2;
    assert t[..|t| - 1] == [t[0]];
  }

  /** The first triplet of a forward line starts a forward walk. */
  lemma ForwardStart(con: seq<Entry>, e: Entry)
    requires e in con && e.prefix1 == Begin
    ensures ForwardWalk(con, [e.prefix2, e.suffix])
  {
    assert [Begin] + [e.prefix2, e.suffix] == [e.prefix1, e.prefix2, e.suffix];
    assert (e.prefix1, e.prefix2, e.suffix) in Triples(con);
  }

  /** Appending the suffix of a row keyed by the last two tokens keeps a
      forward walk going. */
  lemma ForwardStep(con: seq<Entry>, m: seq<string>, e: Entry)
    requires ForwardWalk(con, m) && m[|m| - 1] != End
    requires e in con && e.prefix1 == m[|m| - 2] && e.prefix2 == m[|m| - 1]
    ensures ForwardWalk(con, m + [e.suffix]) && (m + [e.suffix])[0] == m[0]
  {
    LinkedAppend(con, e, [Begin] + m);
    assert ([Begin] + m) + [e.suffix] == [Begin] + (m + [e.suffix]);
    assert (m + [e.suffix])[1..|m|] == m[1..];
  }

  /** The first triplet of a backward line starts a backward walk: its suffix is
      `word` when some row ends in `word`, END otherwise, and END is not kept. */
  lemma ReverseStart(con: seq<Entry>, word: string, e: Entry)
    requires e in con
    requires Suffixed(con, word) ==> e.suffix == word
    requires !Suffixed(con, word) ==> e.suffix == End
    ensures BackwardWalk(con, word, [e.prefix1, e.prefix2] + (if e.suffix != End then [e.suffix] else []))
  {
    assert (e.prefix1, e.prefix2, e.suffix) in Triples(con);
    if e.suffix == End {
      assert [e.prefix1, e.prefix2] + [End] == [e.prefix1, e.prefix2, e.suffix];
    }
  }

  /** Prepending the prefix1 of a row keyed by the first two tokens keeps a
      backward walk going. */
  lemma ReverseStep(con: seq<Entry>, word: string, m: seq<string>, e: Entry)
    requires BackwardWalk(con, word, m)
    requires e in con && e.suffix == m[1] && e.prefix2 == m[0]
    ensures BackwardWalk(con, word, [e.prefix1] + m)
  {
    LinkedPrepend(con, e, m);
    if word == End || !Suffixed(con, word) {
      LinkedPrepend(con, e, m + [End]);
      assert [e.prefix1] + (m + [End]) == ([e.prefix1] + m) + [End];
    }
  }

  lemma StepBound(e: nat, e': nat, n: nat, m: nat)
    requires e' <= n * m && e <= e' + m
    ensures e <= (n + 1) * m
  {
    assert (n + 1) * m == n * m + m;
  }

  /** Reads every row and keeps those the query selects, in row order. */
  method Fetch(con: seq<Entry>, q: Query) returns (result: seq<Entry>)
    ensures result == Where(con, q)
  {
    result := [];
    for i := 0 to |con|
      invariant result == Where(con[..i], q)
    {
      assert con[..i + 1][..i] == con[..i];
      if Matches(con[i], q) {
        result := result + [con[i]];
      }
    }
    assert con[..|con|] == con;
  }

  /** The generator. `db` is the chain table; the tagger, the word vectors and
      the anchor-phrase list are fixed collaborators; `reqWord` and
      `firstPrefix` record the word and first prefix of the last forward start. */
  class GenerateText {
    var reqWord: string
    var firstPrefix: string
    const charaWord: string
    const topn: nat
    const killerPhrases: seq<string>
    const meter: RhymeDistanceMeter
    const db: seq<Entry>
    /** Base forms of the noun and adjective tokens of a text, in text order. */
    const tagger: string -> seq<string>
    /** Membership in the word-vector vocabulary. */
    const inVocab: string -> bool
    /** The 20 nearest words to a word plus the character word. */
    const similarToChara: string -> seq<string>
    /** The 20 nearest words to a word, or None where the lookup raises. */
    const similarWords: string -> Option<seq<string>>

    constructor (charaWord: string, killerPhrases: seq<string>, meter: RhymeDistanceMeter,
                 db: seq<Entry>, tagger: string -> seq<string>, inVocab: string -> bool,
                 similarToChara: string -> seq<string>,
                 similarWords: string -> Option<seq<string>>)
      ensures reqWord == "" && firstPrefix == "" && topn == 3
      ensures this.charaWord == charaWord && this.killerPhrases == killerPhrases
      ensures this.meter == meter && this.db == db && this.tagger == tagger
      ensures this.inVocab == inVocab && this.similarToChara == similarToChara
      ensures this.similarWords == similarWords
    {
      reqWord := "";
      firstPrefix := "";
      this.charaWord := charaWord;
      this.killerPhrases := killerPhrases;
      this.meter := meter;
      this.db := db;
      this.tagger := tagger;
      this.inVocab := inVocab;
      this.similarToChara := similarToChara;
      this.similarWords := similarWords;
      topn := 3;
    }

    /** `_get_chain_from_DB`: the rows with the given prefix1, and prefix2 when given. */
    method GetChain(con: seq<Entry>, prefix1: string, prefix2: Option<string>) returns (r: seq<Entry>)
      ensures r == Where(con, Forward(prefix1, prefix2))
      ensures forall e :: e in r <==>
        e in con && e.prefix1 == prefix1 && (prefix2.Some? ==> e.prefix2 == prefix2.value)
    {
      r := Fetch(con, Forward(prefix1, prefix2));
    }

    /** `_get_chain_from_DB_reverse`: the rows with the given suffix, and prefix2 when given. */
    method GetChainReverse(con: seq<Entry>, suffix: string, prefix2: Option<string>) returns (r: seq<Entry>)
      ensures r == Where(con, Reverse(suffix, prefix2))
      ensures forall e :: e in r <==>
        e in con && e.suffix == suffix && (prefix2.Some? ==> e.prefix2 == prefix2.value)
    {
      r := Fetch(con, Reverse(suffix, prefix2));
    }

    /** The `probability` list of `_get_probable_triplet`. */
    method Probability(chains: seq<Entry>) returns (probability: seq<nat>)
      ensures probability == Expanded(chains)
    {
      probability := [];
      for index := 0 to |chains|
        invariant probability == Expanded(chains[..index])
      {
        ghost var before := probability;
        for j := 0 to chains[index].freq
          invariant probability == before + seq(j, _ => index)
        {
          assert seq(j + 1, _ => index) == seq(j, _ => index) + [index];
          probability := probability + [index];
        }
        ExpandedPrefix(chains, index);
      }
      assert chains[..|chains|] == chains;
    }

    /** `_get_probable_triplet`: one draw over the frequency-weighted index list. */
    method ProbableTriplet(chains: seq<Entry>, rng: Random) returns (r: Result<Entry>)
      modifies rng
      ensures r == Pick(chains, rng.source(old(rng.drawn)))
      ensures rng.drawn == old(rng.drawn) + (if r.Ok? then 1 else 0)
    {
      var probability := Probability(chains);
      if |probability| == 0 {
        return Err(EmptyChoice);
      }
      var chainIndex := rng.Below(|probability|);
      r := Ok(chains[probability[chainIndex]]);
    }

    /** `_get_triplet`: a weighted draw among the rows keyed by both prefixes. */
    method Triplet(con: seq<Entry>, rng: Random, prefix1: string, prefix2: string) returns (r: Result<Entry>)
      modifies rng
      ensures r == Pick(Where(con, Forward(prefix1, Some(prefix2))), rng.source(old(rng.drawn)))
      ensures r.Ok? ==> r.value in con && r.value.prefix1 == prefix1 && r.value.prefix2 == prefix2
      ensures rng.drawn == old(rng.drawn) + (if r.Ok? then 1 else 0)
    {
      var chains := GetChain(con, prefix1, Some(prefix2));
      r := ProbableTriplet(chains, rng);
    }

    /** `_get_triplet_reverse`: a weighted draw among the rows with the given
        suffix and prefix2. */
    method TripletReverse(con: seq<Entry>, rng: Random, suffix1: string, suffix2: string) returns (r: Result<Entry>)
      modifies rng
      ensures r == Pick(Where(con, Reverse(suffix1, Some(suffix2))), rng.source(old(rng.drawn)))
      ensures r.Ok? ==> r.value in con && r.value.suffix == suffix1 && r.value.prefix2 == suffix2
      ensures rng.drawn == old(rng.drawn) + (if r.Ok? then 1 else 0)
    {
      var chains := GetChainReverse(con, suffix1, Some(suffix2));
      r := ProbableTriplet(chains, rng);
    }

    /** `_get_first_triplet_reverse`: a weighted draw among the rows ending in
        `word`, or among the rows ending a line when no row ends in `word`. */
    method FirstTripletReverse(con: seq<Entry>, rng: Random, word: string) returns (r: Result<Entry>)
      modifies rng
      ensures Suffixed(con, word) ==> r == Pick(Where(con, Reverse(word, None)), rng.source(old(rng.drawn)))
      ensures !Suffixed(con, word) ==> r == Pick(Where(con, Reverse(End, None)), rng.source(old(rng.drawn)))
      ensures r.Ok? ==> r.value in con
      ensures r.Ok? && Suffixed(con, word) ==> r.value.suffix == word
      ensures r.Ok? && !Suffixed(con, word) ==> r.value.suffix == End
      ensures rng.drawn == old(rng.drawn) + (if r.Ok? then 1 else 0)
    {
      var chains := GetChainReverse(con, word, None);
      if |chains| == 0 {
        chains := GetChainReverse(con, End, None);
      } else {
        assert chains[0] in chains;
      }
      r := ProbableTriplet(chains, rng);
    }

    /** The first (word index, chain index) hit of a double loop, words outermost. */
    method FindHit(keys: seq<string>, chains: seq<Entry>) returns (hit: Option<(nat, nat)>)
      ensures hit == FirstHit(keys, chains)
    {
      for i := 0 to |keys|
        invariant forall i', j' :: 0 <= i' < i && 0 <= j' < |chains| ==> !Hits(keys[i'], chains[j'])
      {
        for j := 0 to |chains|
          invariant forall j' :: 0 <= j' < j ==> !Hits(keys[i], chains[j'])
        {
          if Hits(keys[i], chains[j]) {
            FirstHitUnique(keys, chains, i, j);
            return Some((i, j));
          }
        }
      }
      return None;
    }

    /** The similar-word phase of `_get_intensive_triplet`, from word `i` on:
        the first word whose neighbour lookup succeeds and whose neighbours hit
        a chain, with the chain hit. */
    function SimilarHit(words: seq<string>, chains: seq<Entry>, i: nat): (h: Option<(nat, nat)>)
      requires i <= |words|
      ensures h.Some? ==> i <= h.value.0 < |words| && similarWords(words[h.value.0]).Some?
      ensures h.Some? ==> FirstHit(similarWords(words[h.value.0]).value, chains).Some?
      ensures h.Some? ==> h.value.1 == FirstHit(similarWords(words[h.value.0]).value, chains).value.1
      ensures h.Some? ==> forall k :: i <= k < h.value.0 ==>
        similarWords(words[k]).None? || FirstHit(similarWords(words[k]).value, chains).None?
      ensures h.None? ==> forall k :: i <= k < |words| ==>
        similarWords(words[k]).None? || FirstHit(similarWords(words[k]).value, chains).None?
      decreases |words| - i
    {
      if i == |words| then None
      else
        var sims := similarWords(words[i]);
        if sims.Some? && FirstHit(sims.value, chains).Some? then
          Some((i, FirstHit(sims.value, chains).value.1))
        else SimilarHit(words, chains, i + 1)
    }

    /** The second double loop of `_get_intensive_triplet`: words in order,
        skipping those whose neighbour lookup raises, each word's neighbours
        scanned against the chains. */
    method FindSimilarHit(words: seq<string>, chains: seq<Entry>) returns (hit: Option<(nat, nat)>)
      ensures hit == SimilarHit(words, chains, 0)
    {
      var i := 0;
      while i < |words|
        invariant 0 <= i <= |words|
        invariant SimilarHit(words, chains, 0) == SimilarHit(words, chains, i)
      {
        var simWords := similarWords(words[i]);
        if simWords.Some? {
          var h := FindHit(simWords.value, chains);
          if h.Some? {
            return Some((i, h.value.1));
          }
        }
        i := i + 1;
      }
      return None;
    }

    /** `_get_word_candidates`: the tagger's base forms with the pronoun swap,
        empty words dropped, one 'ん' removed, then shuffled. */
    method WordCandidates(rng: Random, rText: string) returns (words: seq<string>)
      modifies rng
      ensures multiset(words) == multiset(Cleaned(tagger(rText)))
      ensures rng.drawn == old(rng.drawn) + ShuffleDraws(|words|)
    {
      var baseForms := tagger(rText);
      var candidates: seq<string> := [];
      for i := 0 to |baseForms|
        invariant candidates == Swapped(baseForms[..i])
      {
        assert baseForms[..i + 1][..i] == baseForms[..i];
        candidates := candidates + [SwapPronoun(baseForms[i])];
      }
      assert baseForms[..|baseForms|] == baseForms;
      candidates := NonEmpty(candidates);
      if Nn in candidates {
        candidates := RemoveFirst(candidates, Nn);
      }
      words := Shuffle(rng, candidates);
    }

    /** The choice `_get_intensive_triplet` makes for the shuffled words and
        the raw draw it would use last: the chain and the index of the word
        recorded as the requested word, or a weighted draw and no word. */
    function Intensive(words: seq<string>, chains: seq<Entry>, raw: nat): (c: (Result<Entry>, Option<nat>))
      ensures c.0.Ok? ==> c.0.value in chains
      ensures c.1.Some? ==> c.1.value < |words| && c.0.Ok?
      ensures c.1.Some? ==>
        (|| Hits(words[c.1.value], c.0.value)
         || (similarWords(words[c.1.value]).Some?
             && exists n :: n in similarWords(words[c.1.value]).value && Hits(n, c.0.value)))
      ensures c.1.None? ==> c.0 == Pick(chains, raw)
      ensures c.1.None? ==> forall i, j :: 0 <= i < |words| && 0 <= j < |chains| ==>
        !Hits(words[i], chains[j])
        && (similarWords(words[i]).Some? ==>
            forall n :: n in similarWords(words[i]).value ==> !Hits(n, chains[j]))
    {
      match FirstHit(words, chains)
      case Some(h) => (Ok(chains[h.1]), Some(h.0))
      case None =>
        match SimilarHit(words, chains, 0)
        case Some(h) =>
          var sims := similarWords(words[h.0]).value;
          var s := FirstHit(sims, chains).value.0;
          assert sims[s] in sims;
          (Ok(chains[h.1]), Some(h.0))
        case None =>
          assert forall i, j :: 0 <= i < |words| && 0 <= j < |chains| && similarWords(words[i]).Some? ==>
            forall n :: n in similarWords(words[i]).value ==> !Hits(n, chains[j]) by {
            forall i, j, n | 0 <= i < |words| && 0 <= j < |chains| && similarWords(words[i]).Some?
              && n in similarWords(words[i]).value
              ensures !Hits(n, chains[j])
            {
              var sims := similarWords(words[i]).value;
              var k :| 0 <= k < |sims| && sims[k] == n;
            }
          }
          (Pick(chains, raw), None)
    }

    /** The two searches and the fallback draw of `_get_intensive_triplet`. */
    method Choose(chains: seq<Entry>, rng: Random, words: seq<string>) returns (r: Result<Entry>)
      modifies this, rng
      ensures var c := Intensive(words, chains, rng.source(old(rng.drawn)));
        && r == c.0
        && (c.1.Some? ==> reqWord == words[c.1.value])
        && (c.1.None? ==> reqWord == old(reqWord))
        && rng.drawn == old(rng.drawn) + (if c.1.None? && r.Ok? then 1 else 0)
      ensures firstPrefix == old(firstPrefix)
    {
      var hit := FindHit(words, chains);
      if hit.Some? {
        reqWord := words[hit.value.0];
        return Ok(chains[hit.value.1]);
      }
      var similar := FindSimilarHit(words, chains);
      if similar.Some? {
        reqWord := words[similar.value.0];
        return Ok(chains[similar.value.1]);
      }
      r := ProbableTriplet(chains, rng);
    }

    /** `_get_intensive_triplet`: the candidate words, then the first chain, in
        chain order, hit by the first word, in word order, that hits any;
        failing that the same over each word's neighbours; failing that a
        weighted draw. */
    method IntensiveTriplet(chains: seq<Entry>, rng: Random, rText: string)
      returns (r: Result<Entry>, words: seq<string>)
      modifies this, rng
      ensures multiset(words) == multiset(Cleaned(tagger(rText)))
      ensures var c := Intensive(words, chains, rng.source(old(rng.drawn) + ShuffleDraws(|words|)));
        && r == c.0
        && (c.1.Some? ==> reqWord == words[c.1.value])
        && (c.1.None? ==> reqWord == old(reqWord))
        && rng.drawn == old(rng.drawn) + ShuffleDraws(|words|) + (if c.1.None? && r.Ok? then 1 else 0)
      ensures firstPrefix == old(firstPrefix)
    {
      words := WordCandidates(rng, rText);
      r := Choose(chains, rng, words);
    }

    /** `_get_first_triplet`: the intensive choice among the rows starting a
        line; its prefix2 is recorded as `firstPrefix`. */
    method FirstTriplet(con: seq<Entry>, rng: Random, rText: string)
      returns (r: Result<Entry>, ghost words: seq<string>)
      modifies this, rng
      ensures multiset(words) == multiset(Cleaned(tagger(rText)))
      ensures r == Intensive(words, Where(con, Forward(Begin, None)),
                             rng.source(old(rng.drawn) + ShuffleDraws(|words|))).0
      ensures r.Ok? ==> r.value in con && r.value.prefix1 == Begin && firstPrefix == r.value.prefix2
      ensures r.Err? ==> firstPrefix == old(firstPrefix)
    {
      var chains := GetChain(con, Begin, None);
      var words';
      r, words' := IntensiveTriplet(chains, rng, rText);
      words := words';
      if r.Ok? {
        firstPrefix := r.value.prefix2;
      }
    }

    /** The loop of `_generate_sentence`: from the first triplet, append the
        suffix of a row keyed by the last two tokens until END comes; at most
        `maxSteps` appends (the source loop is unbounded). */
    method ForwardFrom(con: seq<Entry>, rng: Random, first: Entry, maxSteps: nat)
      returns (r: Result<string>, ghost tokens: seq<string>)
      requires first in con && first.prefix1 == Begin
      modifies rng
      ensures r.Ok? ==> ForwardLine(con, tokens, r.value)
      ensures r.Ok? ==> tokens[0] == first.prefix2 && tokens[1] == first.suffix
    {
      var morphemes := [first.prefix2, first.suffix];
      ForwardStart(con, first);
      var steps := 0;
      while morphemes[|morphemes| - 1] != End
        invariant ForwardWalk(con, morphemes)
        invariant morphemes[0] == first.prefix2 && morphemes[1] == first.suffix
        decreases maxSteps - steps
      {
        if steps >= maxSteps {
          return Err(Stalled), morphemes;
        }
        var prefix1, prefix2 := morphemes[|morphemes| - 2], morphemes[|morphemes| - 1];
        var triplet := Triplet(con, rng, prefix1, prefix2);
        if triplet.Err? {
          return Err(triplet.failure), morphemes;
        }
        ForwardStep(con, morphemes, triplet.value);
        morphemes := morphemes + [triplet.value.suffix];
        steps := steps + 1;
      }
      tokens := morphemes;
      r := Ok(Join(morphemes[..|morphemes| - 1]));
    }

    /** `_generate_sentence`: the first triplet, the intensive choice among
        the rows opening a line, then the forward walk from it. */
    method GenerateSentence(con: seq<Entry>, rng: Random, rText: string, maxSteps: nat)
      returns (r: Result<string>, ghost tokens: seq<string>, ghost words: seq<string>,
               ghost start: Result<Entry>)
      modifies this, rng
      ensures multiset(words) == multiset(Cleaned(tagger(rText)))
      ensures start == Intensive(words, Where(con, Forward(Begin, None)),
                                 rng.source(old(rng.drawn) + ShuffleDraws(|words|))).0
      ensures start.Err? ==> r == Err(start.failure)
      ensures r.Ok? ==> ForwardLine(con, tokens, r.value)
      ensures r.Ok? ==> start.Ok? && tokens[0] == start.value.prefix2 && tokens[1] == start.value.suffix
      ensures r.Ok? ==> tokens[0] == firstPrefix
    {
      var first, words' := FirstTriplet(con, rng, rText);
      words, start := words', first;
      if first.Err? {
        r, tokens := Err(first.failure), [];
        return;
      }
      r, tokens := ForwardFrom(con, rng, first.value, maxSteps);
    }

    /** One iteration of the loop over expanded words in
        `_generate_sentences_reverse`: walk backwards from `word` until BEGIN
        is in front; at most `maxSteps` prepends (the source loop is unbounded). */
    method ReverseWalk(con: seq<Entry>, rng: Random, word: string, maxSteps: nat)
      returns (r: Result<string>, ghost tokens: seq<string>)
      modifies rng
      ensures r.Ok? ==> ReverseLine(con, word, tokens, r.value)
    {
      var first := FirstTripletReverse(con, rng, word);
      if first.Err? {
        return Err(first.failure), [];
      }
      var t := first.value;
      // END is not kept as the last token
      var morphemes := [t.prefix1, t.prefix2] + (if t.suffix != End then [t.suffix] else []);
      ReverseStart(con, word, t);
      var steps := 0;
      while morphemes[0] != Begin
        invariant BackwardWalk(con, word, morphemes)
        decreases maxSteps - steps
      {
        if steps >= maxSteps {
          return Err(Stalled), morphemes;
        }
        var suffix1, suffix2 := morphemes[1], morphemes[0];
        var triplet := TripletReverse(con, rng, suffix1, suffix2);
        if triplet.Err? {
          return Err(triplet.failure), morphemes;
        }
        ReverseStep(con, word, morphemes, triplet.value);
        morphemes := [triplet.value.prefix1] + morphemes;
        steps := steps + 1;
      }
      tokens := morphemes;
      r := Ok(Join(morphemes[1..]));
    }

    /** The words following `word` among the expanded seeds: its `topn` best
        rhyming neighbours when it is in the vocabulary, none otherwise. */
    function Neighbours(word: string, anchor: string): (ns: seq<string>)
      ensures |ns| <= topn
      ensures !inVocab(word) ==> ns == []
      ensures forall n :: n in ns ==> n in similarToChara(word)
    {
      if inVocab(word) then
        TopRankedSize(similarToChara(word), meter.Score(anchor), topn);
        TopRankedDistinct(similarToChara(word), meter.Score(anchor), topn);
        TopRanked(similarToChara(word), meter.Score(anchor), topn)
      else []
    }

    /** The seed list: each word followed by its neighbours, in word order. */
    function Expansion(words: seq<string>, anchor: string): (seeds: seq<string>)
      ensures |words| <= |seeds|
    {
      if |words| == 0 then []
      else
        var n := |words| - 1;
        Expansion(words[..n], anchor) + [words[n]] + Neighbours(words[n], anchor)
    }

    /** Each word brings at most `topn` neighbours. */
    lemma {:induction false} ExpansionLength(words: seq<string>, anchor: string)
      ensures |Expansion(words, anchor)| <= |words| * (1 + topn)
    {
      if |words| > 0 {
        var n, m := |words| - 1, 1 + topn;
        var e, e' := Expansion(words, anchor), Expansion(words[..n], anchor);
        ExpansionLength(words[..n], anchor);
        assert e == e' + [words[n]] + Neighbours(words[n], anchor);
        StepBound(|e|, |e'|, n, m);
      }
    }

    /** Expanding one more word appends that word and its neighbours. */
    lemma ExpansionPrefix(words: seq<string>, anchor: string, i: nat)
      requires i < |words|
      ensures Expansion(words[..i + 1], anchor) == Expansion(words[..i], anchor) + [words[i]] + Neighbours(words[i], anchor)
    {
      assert words[..i + 1][..i] == words[..i];
    }

    /** The expansion loop of `_generate_sentences_reverse`. */
    method ExpandWords(words: seq<string>, anchor: string) returns (expanded: seq<string>)
      ensures expanded == Expansion(words, anchor)
    {
      expanded := [];
      for i := 0 to |words|
        invariant expanded == Expansion(words[..i], anchor)
      {
        var word := words[i];
        ExpansionPrefix(words, anchor, i);
        expanded := expanded + [word];
        if inVocab(word) {
          var simWords := similarToChara(word);
          var sims := meter.MostRhyming(anchor, simWords, topn);
          expanded := expanded + sims;
        }
      }
      assert words[..|words|] == words;
    }

    /** `_generate_sentences_reverse`: one backward line per seed, in seed order;
        the first failing walk fails the whole call. */
    method GenerateSentencesReverse(con: seq<Entry>, rng: Random, rText: string, killerPhrase: string, maxSteps: nat)
      returns (r: Result<seq<string>>, words: seq<string>, seeds: seq<string>, ghost walks: seq<seq<string>>)
      modifies rng
      ensures multiset(words) == multiset(Cleaned(tagger(rText)))
      ensures seeds == Expansion(words, killerPhrase)
      ensures r.Ok? ==> |r.value| == |seeds| == |walks|
      ensures r.Ok? ==> forall k :: 0 <= k < |seeds| ==> ReverseLine(con, seeds[k], walks[k], r.value[k])
    {
      words := WordCandidates(rng, rText);
      seeds := ExpandWords(words, killerPhrase);
      r, walks := ReverseWalks(con, rng, seeds, maxSteps);
    }

    /** The loop over the seeds in `_generate_sentences_reverse`. */
    method ReverseWalks(con: seq<Entry>, rng: Random, seeds: seq<string>, maxSteps: nat)
      returns (r: Result<seq<string>>, ghost walks: seq<seq<string>>)
      modifies rng
      ensures r.Ok? ==> |r.value| == |seeds| == |walks|
      ensures r.Ok? ==> forall k :: 0 <= k < |seeds| ==> ReverseLine(con, seeds[k], walks[k], r.value[k])
    {
      var results: seq<string> := [];
      walks := [];
      for i := 0 to |seeds|
        invariant |results| == |walks| == i
        invariant forall k :: 0 <= k < i ==> ReverseLine(con, seeds[k], walks[k], results[k])
      {
        var result;
        ghost var tokens;
        result, tokens := ReverseWalk(con, rng, seeds[i], maxSteps);
        if result.Err? {
          return Err(result.failure), walks;
        }
        results := results + [result.value];
        walks := walks + [tokens];
      }
      r := Ok(results);
    }

    /** `distance` is the strictly greatest distance among the texts, first
        reached at text `k`. */
    ghost predicate BestAt(texts: seq<string>, killerPhrase: string, k: nat, distance: int)
    {
      && (forall j :: 0 <= j < |texts| ==> meter.Throw(texts[j], killerPhrase).Ok?)
      && k < |texts| && meter.Throw(texts[k], killerPhrase).value == distance
      && (forall j :: 0 <= j < k ==> meter.Throw(texts[j], killerPhrase).value < distance)
      && (forall j :: 0 <= j < |texts| ==> meter.Throw(texts[j], killerPhrase).value <= distance)
    }

    /** `__max_distance`: a strict `>` scan from -1; the text is None when no
        distance exceeds -1. */
    method MaxDistance(texts: seq<string>, killerPhrase: string) returns (r: Result<(Option<string>, int)>)
      ensures r.Err? <==> exists j :: 0 <= j < |texts| && meter.Throw(texts[j], killerPhrase).Err?
      ensures r.Err? ==> exists j :: 0 <= j < |texts| && meter.Throw(texts[j], killerPhrase) == Err(r.failure)
      ensures r.Err? ==> exists j :: (0 <= j < |texts| && meter.Throw(texts[j], killerPhrase) == Err(r.failure)
        && forall j' :: 0 <= j' < j ==> meter.Throw(texts[j'], killerPhrase).Ok?)
      ensures r.Ok? ==> forall j :: 0 <= j < |texts| ==> meter.Throw(texts[j], killerPhrase).Ok?
      ensures r.Ok? && r.value.0.None? ==> r.value.1 == -1
      ensures r.Ok? && r.value.0.None? ==>
        forall j :: 0 <= j < |texts| ==> meter.Throw(texts[j], killerPhrase).value <= -1
      ensures r.Ok? && r.value.0.Some? ==> r.value.1 > -1 && exists k: nat ::
        BestAt(texts, killerPhrase, k, r.value.1) && texts[k] == r.value.0.value
      ensures r.Ok? ==> (r.value.0.None? <==>
        forall j :: 0 <= j < |texts| ==> meter.Throw(texts[j], killerPhrase).value <= -1)
    {
      var maxDistance := -1;
      var maxText: Option<string> := None;
      ghost var best: nat := 0;
      for i := 0 to |texts|
        invariant forall j :: 0 <= j < i ==> meter.Throw(texts[j], killerPhrase).Ok?
        invariant forall j :: 0 <= j < i ==> meter.Throw(texts[j], killerPhrase).value <= maxDistance
        invariant maxText.None? ==> maxDistance == -1
        invariant maxText.Some? ==> maxDistance > -1
        invariant maxText.Some? ==> best < i && texts[best] == maxText.value
        invariant maxText.Some? ==> meter.Throw(texts[best], killerPhrase).value == maxDistance
        invariant maxText.Some? ==>
          forall j :: 0 <= j < best ==> meter.Throw(texts[j], killerPhrase).value < maxDistance
      {
        var distance := meter.Throw(texts[i], killerPhrase);
        if distance.Err? {
          return Err(distance.failure);
        }
        if distance.value > maxDistance {
          maxDistance := distance.value;
          maxText := Some(texts[i]);
          best := i;
        }
      }
      r := Ok((maxText, maxDistance));
      if maxText.Some? {
        assert BestAt(texts, killerPhrase, best, maxDistance);
      }
    }

    /** Lines 84-85 of `generate`: the best text by distance with the anchor
        appended after a line break; `None += str` raises when no text scored
        above -1. */
    method BestLine(texts: seq<string>, killerPhrase: string) returns (r: Result<(string, int)>)
      ensures r.Ok? ==> r.value.1 > -1
      ensures r.Ok? ==>
        exists k: nat :: BestAt(texts, killerPhrase, k, r.value.1) && r.value.0 == texts[k] + "\n" + killerPhrase
      ensures r == Err(NoText) <==>
        forall k :: 0 <= k < |texts| ==>
          meter.Throw(texts[k], killerPhrase).Ok? && meter.Throw(texts[k], killerPhrase).value <= -1
    {
      var best := MaxDistance(texts, killerPhrase);
      if best.Err? {
        return Err(best.failure);
      }
      if best.value.0.None? {
        return Err(NoText);
      }
      r := Ok((best.value.0.value + "\n" + killerPhrase, best.value.1));
    }

    /** `generate`: in reverse mode, draw an anchor phrase, walk back from every
        seed, keep the best-scoring line and append the anchor after a line
        break; in forward mode, one forward line with distance 0. */
    method Generate(rng: Random, rText: string, reverse: bool, maxSteps: nat)
      returns (r: Result<(string, int)>, killerPhrase: string, ghost words: seq<string>,
               ghost seeds: seq<string>, ghost walks: seq<seq<string>>, texts: seq<string>)
      modifies this, rng
      ensures reverse && |killerPhrases| == 0 ==> r == Err(EmptyChoice)
      ensures reverse && |killerPhrases| > 0 ==> killerPhrase in killerPhrases
      ensures reverse && |killerPhrases| > 0 ==>
        multiset(words) == multiset(Cleaned(tagger(rText))) && seeds == Expansion(words, killerPhrase)
      ensures reverse && r.Ok? ==> r.value.1 > -1
      ensures reverse && r.Ok? ==>
        exists k: nat :: BestAt(texts, killerPhrase, k, r.value.1) && r.value.0 == texts[k] + "\n" + killerPhrase
      ensures reverse && r.Ok? ==> |texts| == |seeds| == |walks|
      ensures reverse && r.Ok? ==>
        forall k :: 0 <= k < |seeds| ==> ReverseLine(db, seeds[k], walks[k], texts[k])
      ensures reverse && r == Err(NoText) ==>
        forall k :: 0 <= k < |texts| ==>
          meter.Throw(texts[k], killerPhrase).Ok? && meter.Throw(texts[k], killerPhrase).value <= -1
      ensures !reverse && r.Ok? ==> r.value.1 == 0 && |walks| == 1
      ensures !reverse && r.Ok? ==> ForwardLine(db, walks[0], r.value.0)
      ensures !reverse && r.Ok? ==> walks[0][0] == firstPrefix
      ensures reverse ==> reqWord == old(reqWord) && firstPrefix == old(firstPrefix)
    {
      if reverse {
        if |killerPhrases| == 0 {
          return Err(EmptyChoice), "", [], [], [], [];
        }
        var choice := rng.Below(|killerPhrases|);
        killerPhrase := killerPhrases[choice];
        var textList, words', seeds';
        textList, words', seeds', walks := GenerateSentencesReverse(db, rng, rText, killerPhrase, maxSteps);
        words, seeds := words', seeds';
        if textList.Err? {
          return Err(textList.failure), killerPhrase, words, seeds, walks, [];
        }
        texts := textList.value;
        r := BestLine(texts, killerPhrase);
        assert reqWord == old(reqWord) && firstPrefix == old(firstPrefix);
      } else {
        var text;
        ghost var tokens, words', start;
        text, tokens, words', start := GenerateSentence(db, rng, rText, maxSteps);
        if text.Err? {
          return Err(text.failure), "", [], [], [], [];
        }
        r := Ok((text.value, 0));
        killerPhrase, words, seeds, walks, texts := "", [], [], [tokens], [];
      }
    }
  }
}

=== FILE: outcomes.dfy ===
/** Option and Result values, and the ways the generator can fail. */
module Outcomes {

  datatype Option<+T> = None | Some(value: T)

  /** The exceptions the generator raises, each as a value. */
  datatype Failure =
    | EmptyChoice   // random.choice over an empty list raises IndexError
    | Stalled       // a walk used up its step bound without reaching its sentinel
    | NoText        // no candidate scored above -1, so `None + str` raises TypeError
    | ZeroDivision  // the length ratio of two empty lines divides by zero
    | ScoreFailure  // the similarity scorer raises (a `max` over no noun scores)
    | DistFailure   // the distance formula raises (zero to a negative power, overflow)

  datatype Result<+T> = Ok(value: T) | Err(failure: Failure)
}

=== FILE: random.dfy ===
/** The process-wide pseudo-random source, injected as a stream of raw draws. */
module Randomness {

  /** `source(k)` is the k-th raw draw; `drawn` counts the draws used so far. */
  class Random {
    const source: nat -> nat
    var drawn: nat

    constructor (source: nat -> nat)
      ensures this.source == source && drawn == 0
    {
      this.source := source;
      drawn := 0;
    }

    /** A uniform position below `n` (`randbelow`), consuming one draw. */
    method Below(n: nat) returns (k: nat)
      requires n > 0
      modifies this
      ensures k < n
      ensures k == source(old(drawn)) % n
      ensures drawn == old(drawn) + 1
    {
      k := source(drawn) % n;
      drawn := drawn + 1;
    }
  }

  /** The draws `random.shuffle` uses on a list of length n. */
  function ShuffleDraws(n: nat): nat { if n == 0 then 0 else n - 1 }

  /** `random.shuffle`: Fisher-Yates from the back, drawing the partner of
      position i below i + 1; the result is a permutation of `xs`. */
  method Shuffle<T>(rng: Random, xs: seq<T>) returns (ys: seq<T>)
    modifies rng
    ensures |ys| == |xs|
    ensures multiset(ys) == multiset(xs)
    ensures rng.drawn == old(rng.drawn) + ShuffleDraws(|xs|)
  {
    ys := xs;
    var i := |ys|;
    while i > 1
      invariant 0 <= i <= |ys| == |xs|
      invariant |xs| > 0 ==> i >= 1
      invariant multiset(ys) == multiset(xs)
      invariant rng.drawn == old(rng.drawn) + (if |xs| == 0 then 0 else |xs| - i)
    {
      var j := rng.Below(i);
      ys := ys[i - 1 := ys[j]][j := ys[i - 1]];
      i := i - 1;
    }
  }
}

=== FILE: ranking.dfy ===
/** Ranking a list of candidate words by a score: the dictionary that
    collapses repeated candidates, the stable descending sort and the top-n cut. */
module Ranking {

  predicate Distinct(s: seq<string>)
  {
    forall i, j :: 0 <= i < j < |s| ==> s[i] != s[j]
  }

  /** Position of the first occurrence of `x` in `s`. */
  function FirstIndex(s: seq<string>, x: string): (k: nat)
    requires x in s
    ensures k < |s| && s[k] == x
    ensures forall j :: 0 <= j < k ==> s[j] != x
  {
    if s[0] == x then 0 else 1 + FirstIndex(s[1..], x)
  }

  /** The keys of a dictionary filled from `s` in order: each word once, at the
      place where it was first inserted. */
  function Dedup(s: seq<string>): (d: seq<string>)
    ensures forall x :: x in d <==> x in s
    ensures Distinct(d)
    ensures |d| <= |s|
  {
    if |s| == 0 then []
    else
      var p := Dedup(s[..|s| - 1]);
      assert forall x :: x in s <==> x in s[..|s| - 1] || x == s[|s| - 1] by {
        assert s == s[..|s| - 1] + [s[|s| - 1]];
      }
      if s[|s| - 1] in p then p else p + [s[|s| - 1]]
  }

  lemma FirstIndexInPrefix(s: seq<string>, y: string, x: string)
    requires x in s
    ensures FirstIndex(s + [y], x) == FirstIndex(s, x)
  {
    var k, k' := FirstIndex(s + [y], x), FirstIndex(s, x);
    assert (s + [y])[k'] == x;
  }

  /** The keys keep first-occurrence order. */
  lemma {:induction false} DedupOrder(s: seq<string>)
    ensures forall i, j :: 0 <= i < j < |Dedup(s)| ==>
      FirstIndex(s, Dedup(s)[i]) < FirstIndex(s, Dedup(s)[j])
  {
    if |s| > 0 {
      var init, last := s[..|s| - 1], s[|s| - 1];
      assert s == init + [last];
      var p := Dedup(init);
      DedupOrder(init);
      forall x | x in init
        ensures FirstIndex(s, x) == FirstIndex(init, x) < |init|
      {
        FirstIndexInPrefix(init, last, x);
      }
      if last !in p {
        assert FirstIndex(s, last) == |init|;
      }
    }
  }

  /** A dictionary entry: the word, its score and its insertion position. */
  datatype Item = Item(word: string, count: nat, pos: nat)

  /** The order of `sorted(..., key=count, reverse=True)`, which is stable:
      higher count first, and among equal counts earlier insertion first. */
  predicate Before(a: Item, b: Item)
  {
    a.count > b.count || (a.count == b.count && a.pos < b.pos)
  }

  predicate SortedBy(s: seq<Item>)
  {
    forall i, j :: 0 <= i < j < |s| ==> Before(s[i], s[j])
  }

  /** `res.items()`: each key with its score, in insertion order. */
  function Tally(keys: seq<string>, score: string -> nat): (items: seq<Item>)
    ensures |items| == |keys|
    ensures forall i :: 0 <= i < |keys| ==> items[i] == Item(keys[i], score(keys[i]), i)
  {
    seq(|keys|, i requires 0 <= i < |keys| => Item(keys[i], score(keys[i]), i))
  }

  /** Puts `x` in front of the first item that does not score higher. */
  function Insert(x: Item, s: seq<Item>): (r: seq<Item>)
    ensures multiset(r) == multiset(s) + multiset{x}
  {
    if |s| == 0 || s[0].count <= x.count then [x] + s
    else
      assert s == [s[0]] + s[1..];
      [s[0]] + Insert(x, s[1..])
  }

  /** Stable descending sort by count (an insertion sort). */
  function Sort(items: seq<Item>): (r: seq<Item>)
    ensures multiset(r) == multiset(items)
  {
    if |items| == 0 then []
    else
      assert items == [items[0]] + items[1..];
      Insert(items[0], Sort(items[1..]))
  }

  lemma {:induction false} InsertSorted(x: Item, s: seq<Item>)
    requires SortedBy(s)
    requires forall y :: y in s ==> x.pos < y.pos
    ensures SortedBy(Insert(x, s))
  {
    if |s| > 0 && s[0].count > x.count {
      InsertSorted(x, s[1..]);
      var r := Insert(x, s);
      var t := Insert(x, s[1..]);
      assert r == [s[0]] + t;
      forall k | 0 <= k < |t| ensures Before(s[0], t[k]) {
        assert t[k] in multiset(t);
        if t[k] != x {
          assert t[k] in s[1..];
        }
      }
    } else if |s| > 0 {
      assert forall k :: 0 <= k < |s| ==> Before(s[0], s[k]) || k == 0;
      assert forall k :: 0 <= k < |s| ==> s[k] in s;
    }
  }

  lemma {:induction false} SortSorted(items: seq<Item>)
    requires forall i, j :: 0 <= i < j < |items| ==> items[i].pos < items[j].pos
    ensures SortedBy(Sort(items))
  {
    if |items| > 0 {
      SortSorted(items[1..]);
      forall y | y in Sort(items[1..]) ensures items[0].pos < y.pos {
        assert y in multiset(Sort(items[1..]));
        assert y in items[1..];
      }
      InsertSorted(items[0], Sort(items[1..]));
    }
  }

  function Keys(items: seq<Item>): (ws: seq<string>)
    ensures |ws| == |items|
    ensures forall i :: 0 <= i < |items| ==> ws[i] == items[i].word
  {
    seq(|items|, i requires 0 <= i < |items| => items[i].word)
  }

  function Min(a: nat, b: nat): nat { if a < b then a else b }

  /** `most_rhyming`'s answer: the first `n` keys of the stable descending
      sort, so never more than `n` words. */
  function TopRanked(cands: seq<string>, score: string -> nat, n: nat): (r: seq<string>)
    ensures |r| <= n
  {
    var sorted := Sort(Tally(Dedup(cands), score));
    Keys(sorted[..Min(n, |sorted|)])
  }

  /** `sorted` holds each key of `keys` exactly once, with its score and position. */
  ghost predicate Tallied(keys: seq<string>, sorted: seq<Item>, score: string -> nat)
  {
    && |sorted| == |keys|
    && SortedBy(sorted)
    && (forall k :: 0 <= k < |sorted| ==>
          sorted[k].pos < |keys| && keys[sorted[k].pos] == sorted[k].word
          && sorted[k].count == score(sorted[k].word))
    && (forall p :: 0 <= p < |keys| ==> Item(keys[p], score(keys[p]), p) in sorted)
  }

  /** Sorting the dictionary's items loses and invents nothing. */
  lemma SortedTally(keys: seq<string>, score: string -> nat)
    ensures Tallied(keys, Sort(Tally(keys, score)), score)
  {
    var items := Tally(keys, score);
    var sorted := Sort(items);
    SortSorted(items);
    assert |sorted| == |multiset(sorted)| == |multiset(items)| == |items|;
    forall k | 0 <= k < |sorted|
      ensures sorted[k].pos < |keys| && keys[sorted[k].pos] == sorted[k].word
      ensures sorted[k].count == score(sorted[k].word)
    {
      assert sorted[k] in multiset(items);
      var i :| 0 <= i < |items| && items[i] == sorted[k];
    }
    forall p | 0 <= p < |keys| ensures Item(keys[p], score(keys[p]), p) in sorted {
      assert items[p] in multiset(sorted);
    }
  }

  /** Every key sits somewhere in the sorted dictionary. */
  lemma KeyPlaced(keys: seq<string>, sorted: seq<Item>, score: string -> nat, w: string)
    returns (k: nat)
    requires Tallied(keys, sorted, score) && w in keys
    ensures k < |sorted| && sorted[k].word == w
  {
    var p := FirstIndex(keys, w);
    assert Item(keys[p], score(keys[p]), p) in sorted;
    k :| 0 <= k < |sorted| && sorted[k] == Item(keys[p], score(keys[p]), p);
  }

  /** At most `n` words come back, and all distinct candidates when there are
      no more than `n` of them. */
  lemma TopRankedSize(cands: seq<string>, score: string -> nat, n: nat)
    ensures |TopRanked(cands, score, n)| == Min(n, |Dedup(cands)|) <= n
    ensures |Dedup(cands)| <= n ==> forall w :: w in cands ==> w in TopRanked(cands, score, n)
  {
    var keys := Dedup(cands);
    var sorted := Sort(Tally(keys, score));
    SortedTally(keys, score);
    var r := TopRanked(cands, score, n);
    if |keys| <= n {
      forall w | w in cands ensures w in r {
        var k := KeyPlaced(keys, sorted, score, w);
        assert r[k] == w;
      }
    }
  }

  /** The words returned are candidates, and none comes twice. */
  lemma TopRankedDistinct(cands: seq<string>, score: string -> nat, n: nat)
    ensures Distinct(TopRanked(cands, score, n))
    ensures forall w :: w in TopRanked(cands, score, n) ==> w in cands
  {
    var keys := Dedup(cands);
    var sorted := Sort(Tally(keys, score));
    SortedTally(keys, score);
    var r := TopRanked(cands, score, n);
    forall i, j | 0 <= i < j < |r| ensures r[i] != r[j] {
      assert Before(sorted[i], sorted[j]);
      assert sorted[i].pos != sorted[j].pos ==> keys[sorted[i].pos] != keys[sorted[j].pos];
    }
    forall w | w in r ensures w in cands {
      var k :| 0 <= k < |r| && r[k] == w;
      assert keys[sorted[k].pos] == w;
    }
  }

  /** Nonincreasing score; among equal scores, first-occurrence order. */
  lemma TopRankedOrder(cands: seq<string>, score: string -> nat, n: nat)
    ensures forall w :: w in TopRanked(cands, score, n) ==> w in cands
    ensures var r := TopRanked(cands, score, n);
      forall i, j :: 0 <= i < j < |r| ==>
        score(r[i]) > score(r[j])
        || (score(r[i]) == score(r[j]) && FirstIndex(cands, r[i]) < FirstIndex(cands, r[j]))
  {
    var keys := Dedup(cands);
    var sorted := Sort(Tally(keys, score));
    SortedTally(keys, score);
    DedupOrder(cands);
    TopRankedDistinct(cands, score, n);
    var r := TopRanked(cands, score, n);
    forall i, j | 0 <= i < j < |r|
      ensures score(r[i]) > score(r[j])
           || (score(r[i]) == score(r[j]) && FirstIndex(cands, r[i]) < FirstIndex(cands, r[j]))
    {
      assert Before(sorted[i], sorted[j]);
    }
  }

  /** A candidate left out scores no higher than any word returned. */
  lemma TopRankedCutoff(cands: seq<string>, score: string -> nat, n: nat, w: string)
    requires w in cands && w !in TopRanked(cands, score, n)
    ensures forall i :: 0 <= i < |TopRanked(cands, score, n)| ==>
      score(w) <= score(TopRanked(cands, score, n)[i])
  {
    var keys := Dedup(cands);
    var sorted := Sort(Tally(keys, score));
    SortedTally(keys, score);
    var r := TopRanked(cands, score, n);
    var k := KeyPlaced(keys, sorted, score, w);
    assert forall k' :: 0 <= k' < |r| ==> r[k'] == sorted[k'].word != w;
    forall i | 0 <= i < |r| ensures score(w) <= score(r[i]) {
      assert Before(sorted[i], sorted[k]);
    }
  }
}

=== FILE: rhyme.dfy ===
/** The rhyme/semantic distance between two lines: the vowel rhyme count,
    the ranking of candidates by rhyme, the length ratio and their composition. */
module RhymeDistance {
  import opened Outcomes
  import opened Ranking

  /** Number of equal vowels counted from the end backwards, up to the first mismatch. */
  function TailRhyme(a: seq<char>, b: seq<char>): (k: nat)
    ensures k <= |a| && k <= |b|
  {
    if |a| == 0 || |b| == 0 || a[|a| - 1] != b[|b| - 1] then 0
    else 1 + TailRhyme(a[..|a| - 1], b[..|b| - 1])
  }

  /** Number of equal vowels counted from the start forwards, up to the first mismatch. */
  function HeadRhyme(a: seq<char>, b: seq<char>): (k: nat)
    ensures k <= |a| && k <= |b|
  {
    if |a| == 0 || |b| == 0 || a[0] != b[0] then 0
    else 1 + HeadRhyme(a[1..], b[1..])
  }

  /** The rhyme count of two vowel sequences: the tail rhyme, or the head rhyme
      when no final vowels match. */
  function RhymeCount(a: seq<char>, b: seq<char>): (k: nat)
    ensures k <= |a| && k <= |b|
  {
    var tail := TailRhyme(a, b);
    if tail > 0 then tail else HeadRhyme(a, b)
  }

  /** The last `k` vowels of `a` and `b` agree, and `k` cannot be extended. */
  predicate LongestCommonSuffix(a: seq<char>, b: seq<char>, k: nat)
  {
    && k <= |a| && k <= |b|
    && a[|a| - k..] == b[|b| - k..]
    && (k == |a| || k == |b| || a[|a| - k - 1] != b[|b| - k - 1])
  }

  /** The first `k` vowels of `a` and `b` agree, and `k` cannot be extended. */
  predicate LongestCommonPrefix(a: seq<char>, b: seq<char>, k: nat)
  {
    && k <= |a| && k <= |b|
    && a[..k] == b[..k]
    && (k == |a| || k == |b| || a[k] != b[k])
  }

  /** The tail rhyme is exactly the length of the longest common suffix. */
  lemma {:induction false} TailRhymeIsLongestCommonSuffix(a: seq<char>, b: seq<char>, k: nat)
    ensures TailRhyme(a, b) == k <==> LongestCommonSuffix(a, b, k)
    decreases |a|
  {
    if |a| > 0 && |b| > 0 && a[|a| - 1] == b[|b| - 1] {
      if k > 0 {
        TailRhymeIsLongestCommonSuffix(a[..|a| - 1], b[..|b| - 1], k - 1);
        SuffixStep(a, b, k);
      } else {
        assert !LongestCommonSuffix(a, b, 0);
      }
    } else if 0 < k <= |a| && k <= |b| {
      assert a[|a| - 1] == a[|a| - k..][k - 1] && b[|b| - 1] == b[|b| - k..][k - 1];
    }
  }

  /** Dropping a matching last vowel shortens the longest common suffix by one. */
  lemma SuffixStep(a: seq<char>, b: seq<char>, k: nat)
    requires |a| > 0 && |b| > 0 && a[|a| - 1] == b[|b| - 1] && k > 0
    ensures LongestCommonSuffix(a, b, k) <==> LongestCommonSuffix(a[..|a| - 1], b[..|b| - 1], k - 1)
  {
    var a', b' := a[..|a| - 1], b[..|b| - 1];
    if k <= |a| && k <= |b| {
      assert a[|a| - k..] == a'[|a'| - (k - 1)..] + [a[|a| - 1]];
      assert b[|b| - k..] == b'[|b'| - (k - 1)..] + [b[|b| - 1]];
      SnocEq(a'[|a'| - (k - 1)..], b'[|b'| - (k - 1)..], a[|a| - 1]);
      if k < |a| && k < |b| {
        assert a[|a| - k - 1] == a'[|a'| - (k - 1) - 1];
        assert b[|b| - k - 1] == b'[|b'| - (k - 1) - 1];
      }
    }
  }

  lemma SnocEq(s: seq<char>, t: seq<char>, x: char)
    ensures s + [x] == t + [x] <==> s == t
  {
    if s + [x] == t + [x] {
      assert s == (s + [x])[..|s|];
      assert t == (t + [x])[..|t|];
    }
  }

  /** The head rhyme is exactly the length of the longest common prefix. */
  lemma {:induction false} HeadRhymeIsLongestCommonPrefix(a: seq<char>, b: seq<char>, k: nat)
    ensures HeadRhyme(a, b) == k <==> LongestCommonPrefix(a, b, k)
    decreases |a|
  {
    if |a| > 0 && |b| > 0 && a[0] == b[0] {
      if k > 0 {
        HeadRhymeIsLongestCommonPrefix(a[1..], b[1..], k - 1);
        PrefixStep(a, b, k);
      } else {
        assert !LongestCommonPrefix(a, b, 0);
      }
    } else if 0 < k <= |a| && k <= |b| {
      assert a[0] == a[..k][0] && b[0] == b[..k][0];
    }
  }

  /** Dropping a matching first vowel shortens the longest common prefix by one. */
  lemma PrefixStep(a: seq<char>, b: seq<char>, k: nat)
    requires |a| > 0 && |b| > 0 && a[0] == b[0] && k > 0
    ensures LongestCommonPrefix(a, b, k) <==> LongestCommonPrefix(a[1..], b[1..], k - 1)
  {
    var a', b' := a[1..], b[1..];
    if k <= |a| && k <= |b| {
      assert a[..k] == [a[0]] + a'[..k - 1];
      assert b[..k] == [b[0]] + b'[..k - 1];
      ConsEq(a'[..k - 1], b'[..k - 1], a[0]);
      if k < |a| && k < |b| {
        assert a[k] == a'[k - 1] && b[k] == b'[k - 1];
      }
    }
  }

  lemma ConsEq(s: seq<char>, t: seq<char>, x: char)
    ensures [x] + s == [x] + t <==> s == t
  {
    if [x] + s == [x] + t {
      assert s == ([x] + s)[1..];
      assert t == ([x] + t)[1..];
    }
  }

  /** Which loop decides: matching final vowels give the longest common suffix;
      otherwise the count is the longest common prefix. */
  lemma RhymeCountCases(a: seq<char>, b: seq<char>)
    ensures |a| > 0 && |b| > 0 && a[|a| - 1] == b[|b| - 1] ==>
      RhymeCount(a, b) > 0 && LongestCommonSuffix(a, b, RhymeCount(a, b))
    ensures !(|a| > 0 && |b| > 0 && a[|a| - 1] == b[|b| - 1]) ==>
      LongestCommonPrefix(a, b, RhymeCount(a, b))
  {
    TailRhymeIsLongestCommonSuffix(a, b, TailRhyme(a, b));
    HeadRhymeIsLongestCommonPrefix(a, b, HeadRhyme(a, b));
  }

  lemma {:induction false} TailRhymeSymmetric(a: seq<char>, b: seq<char>)
    ensures TailRhyme(a, b) == TailRhyme(b, a)
    decreases |a|
  {
    if |a| > 0 && |b| > 0 && a[|a| - 1] == b[|b| - 1] {
      TailRhymeSymmetric(a[..|a| - 1], b[..|b| - 1]);
    }
  }

  lemma {:induction false} HeadRhymeSymmetric(a: seq<char>, b: seq<char>)
    ensures HeadRhyme(a, b) == HeadRhyme(b, a)
    decreases |a|
  {
    if |a| > 0 && |b| > 0 && a[0] == b[0] {
      HeadRhymeSymmetric(a[1..], b[1..]);
    }
  }

  /** Both loops compare mirrored positions only, so the count is symmetric. */
  lemma RhymeCountSymmetric(a: seq<char>, b: seq<char>)
    ensures RhymeCount(a, b) == RhymeCount(b, a)
  {
    TailRhymeSymmetric(a, b);
    HeadRhymeSymmetric(a, b);
  }

  /** A line rhymes with itself on every vowel. */
  lemma {:induction false} RhymeCountSelf(a: seq<char>)
    ensures RhymeCount(a, a) == |a|
  {
    TailRhymeIsLongestCommonSuffix(a, a, |a|);
  }

  /** `len_rate`: the shorter length over the longer; Python raises
      ZeroDivisionError when both lines are empty. */
  function LenRate(s1: string, s2: string): (r: Option<real>)
    ensures r.None? <==> |s1| == 0 && |s2| == 0
    ensures r.Some? ==> 0.0 <= r.value <= 1.0
    ensures r.Some? ==> (r.value == 1.0 <==> |s1| == |s2|)
  {
    if |s1| == 0 && |s2| == 0 then None
    else
      var lo := if |s1| < |s2| then |s1| else |s2|;
      var hi := if |s1| < |s2| then |s2| else |s1|;
      RatioBounds(lo, hi);
      Some(lo as real / hi as real)
  }

  /** A ratio of a count to a larger positive count lies in [0, 1] and is 1
      exactly when the two are equal. */
  lemma RatioBounds(lo: nat, hi: nat)
    requires 0 < hi && lo <= hi
    ensures 0.0 <= lo as real / hi as real <= 1.0
    ensures lo as real / hi as real == 1.0 <==> lo == hi
  {
    var q, l, h := lo as real / hi as real, lo as real, hi as real;
    assert q * h == l;
    LeqByFactor(0.0, q, h);
    LeqByFactor(q, 1.0, h);
    if lo < hi {
      LessByFactor(q, 1.0, h);
    } else {
      LeqByFactor(1.0, q, h);
    }
  }

  lemma LeqByFactor(x: real, y: real, h: real)
    requires h > 0.0 && x * h <= y * h
    ensures x <= y
  {
  }

  lemma LessByFactor(x: real, y: real, h: real)
    requires h > 0.0 && x * h < y * h
    ensures x < y
  {
  }

  /** The ratio does not depend on the order of the two lines. */
  lemma LenRateSymmetric(s1: string, s2: string)
    ensures LenRate(s1, s2) == LenRate(s2, s1)
  {
  }

  /** The meter holds its collaborators: the transliteration of a line to its
      vowels, the semantic similarity scorer and the distance formula, all
      fixed when it is built. */
  class RhymeDistanceMeter {
    const chara: string
    const vowelize: string -> seq<char>
    /** The BERTScore pair (line similarity, best noun similarity), or None
        where the scorer raises. */
    const scoreSimilarity: (string, string) -> Option<(real, real)>
    /** The distance formula, or None where its power raises. */
    const calcDist: (nat, real, real, real) -> Option<int>

    constructor (chara: string, vowelize: string -> seq<char>,
                 scoreSimilarity: (string, string) -> Option<(real, real)>,
                 calcDist: (nat, real, real, real) -> Option<int>)
      ensures this.chara == chara && this.vowelize == vowelize
      ensures this.scoreSimilarity == scoreSimilarity && this.calcDist == calcDist
    {
      this.chara := chara;
      this.vowelize := vowelize;
      this.scoreSimilarity := scoreSimilarity;
      this.calcDist := calcDist;
    }

    /** How well a word rhymes with the anchor phrase. */
    function Score(anchor: string): string -> nat
    {
      w => RhymeCount(vowelize(anchor), vowelize(w))
    }

    /** `count_rhyme`: the two counting loops over the vowel sequences. */
    method CountRhyme(s1: string, s2: string) returns (cnt: nat)
      ensures cnt == RhymeCount(vowelize(s1), vowelize(s2))
    {
      var vowel1, vowel2 := vowelize(s1), vowelize(s2);
      cnt := TailCount(vowel1, vowel2);
      if cnt > 0 {
        return;
      }
      cnt := HeadCount(vowel1, vowel2);
    }

    /** The backward loop of `count_rhyme`: equal vowels from the end, stopping
        at the first mismatch. */
    method TailCount(vowel1: seq<char>, vowel2: seq<char>) returns (cnt: nat)
      ensures cnt == TailRhyme(vowel1, vowel2)
    {
      var minLen := if |vowel1| < |vowel2| then |vowel1| else |vowel2|;
      cnt := 0;
      var i := 1;
      while i <= minLen
        invariant 1 <= i <= minLen + 1
        invariant cnt == i - 1
        invariant vowel1[|vowel1| - cnt..] == vowel2[|vowel2| - cnt..]
      {
        if vowel1[|vowel1| - i] == vowel2[|vowel2| - i] {
          assert vowel1[|vowel1| - i..] == [vowel1[|vowel1| - i]] + vowel1[|vowel1| - cnt..];
          assert vowel2[|vowel2| - i..] == [vowel2[|vowel2| - i]] + vowel2[|vowel2| - cnt..];
          cnt := cnt + 1;
        } else {
          break;
        }
        i := i + 1;
      }
      assert LongestCommonSuffix(vowel1, vowel2, cnt);
      TailRhymeIsLongestCommonSuffix(vowel1, vowel2, cnt);
    }

    /** The forward loop of `count_rhyme`: equal vowels from the start, stopping
        at the first mismatch. */
    method HeadCount(vowel1: seq<char>, vowel2: seq<char>) returns (cnt: nat)
      ensures cnt == HeadRhyme(vowel1, vowel2)
    {
      var minLen := if |vowel1| < |vowel2| then |vowel1| else |vowel2|;
      cnt := 0;
      var i := 0;
      while i < minLen
        invariant 0 <= i <= minLen
        invariant cnt == i
        invariant vowel1[..cnt] == vowel2[..cnt]
      {
        if vowel1[i] == vowel2[i] {
          assert vowel1[..i + 1] == vowel1[..i] + [vowel1[i]];
          assert vowel2[..i + 1] == vowel2[..i] + [vowel2[i]];
          cnt := cnt + 1;
        } else {
          break;
        }
        i := i + 1;
      }
      assert LongestCommonPrefix(vowel1, vowel2, cnt);
      HeadRhymeIsLongestCommonPrefix(vowel1, vowel2, cnt);
    }

    /** The `res` dictionary of `most_rhyming`: its keys in insertion order and
        the rhyme count of each with the anchor. */
    method RhymeCounts(anchor: string, candidates: seq<string>) returns (keys: seq<string>, res: map<string, nat>)
      ensures keys == Dedup(candidates)
      ensures forall k :: k in res <==> k in keys
      ensures forall k :: k in res ==> res[k] == RhymeCount(vowelize(anchor), vowelize(k))
    {
      keys := [];
      res := map[];
      var i := 0;
      while i < |candidates|
        invariant 0 <= i <= |candidates|
        invariant keys == Dedup(candidates[..i])
        invariant forall k :: k in res <==> k in keys
        invariant forall k :: k in res ==> res[k] == RhymeCount(vowelize(anchor), vowelize(k))
      {
        var c := candidates[i];
        var cnt := CountRhyme(anchor, c);
        assert candidates[..i + 1] == candidates[..i] + [c];
        if c !in res {
          keys := keys + [c];
        }
        res := res[c := cnt];
        i := i + 1;
      }
      assert candidates[..i] == candidates;
    }

    /** `most_rhyming`: the distinct candidates by descending rhyme count with
        the anchor, first occurrences first among equals, cut to `topn`. */
    method MostRhyming(anchor: string, candidates: seq<string>, topn: nat) returns (r: seq<string>)
      ensures r == TopRanked(candidates, Score(anchor), topn)
    {
      var keys, res := RhymeCounts(anchor, candidates);
      var items := seq(|keys|, k requires 0 <= k < |keys| => Item(keys[k], res[keys[k]], k));
      assert items == Tally(keys, Score(anchor)) by {
        assert forall k :: 0 <= k < |keys| ==> keys[k] in res && res[keys[k]] == Score(anchor)(keys[k]);
      }
      var sorted := Sort(items);
      r := Keys(sorted[..Min(topn, |sorted|)]);
    }

    /** `throw`: the rhyme count, the similarity pair and the length ratio fed
        to the distance formula, in that order; the first of them to raise
        decides the failure. */
    function Throw(s1: string, s2: string): (r: Result<int>)
      ensures r.Err? ==> r.failure in {ScoreFailure, ZeroDivision, DistFailure}
      ensures scoreSimilarity(s1, s2).None? ==> r == Err(ScoreFailure)
      ensures scoreSimilarity(s1, s2).Some? && |s1| == 0 && |s2| == 0 ==> r == Err(ZeroDivision)
      ensures r.Ok? ==>
        && scoreSimilarity(s1, s2).Some? && LenRate(s1, s2).Some?
        && calcDist(RhymeCount(vowelize(s1), vowelize(s2)), scoreSimilarity(s1, s2).value.0,
                    scoreSimilarity(s1, s2).value.1, LenRate(s1, s2).value) == Some(r.value)
      ensures r.Ok? ==> exists count: nat, rate: real ::
        && count <= |vowelize(s1)| && count <= |vowelize(s2)|
        && 0.0 <= rate <= 1.0
        && calcDist(count, scoreSimilarity(s1, s2).value.0, scoreSimilarity(s1, s2).value.1, rate) == Some(r.value)
      ensures r.Err? && r.failure == DistFailure ==>
        calcDist(RhymeCount(vowelize(s1), vowelize(s2)), scoreSimilarity(s1, s2).value.0,
                 scoreSimilarity(s1, s2).value.1, LenRate(s1, s2).value).None?
    {
      var count := RhymeCount(vowelize(s1), vowelize(s2));
      match scoreSimilarity(s1, s2)
      case None => Err(ScoreFailure)
      case Some(sims) =>
        match LenRate(s1, s2)
        case None => Err(ZeroDivision)
        case Some(rate) =>
          match calcDist(count, sims.0, sims.1, rate)
          case None => Err(DistFailure)
          case Some(d) => Ok(d)
    }
  }
}

=== FILE: text.dfy ===
/** Python string operations the generator relies on, over `seq<char>`. */
module Text {

  predicate IsPrefix(t: string, s: string)
  {
    |t| <= |s| && s[..|t|] == t
  }

  /** Python's `t in s`: `t` occurs in `s` as a contiguous substring, so it is
      no longer than `s`. */
  predicate Contains(s: string, t: string)
    ensures Contains(s, t) ==> |t| <= |s|
    decreases |s|
  {
    IsPrefix(t, s) || (|s| > 0 && Contains(s[1..], t))
  }

  /** Python's `s.replace(pat, rep)`: every non-overlapping occurrence of `pat`,
      scanning left to right, is replaced by `rep`; a replacement as long as
      the pattern keeps the length. */
  function ReplaceAll(s: string, pat: string, rep: string): (r: string)
    requires |pat| > 0
    ensures |rep| == |pat| ==> |r| == |s|
    decreases |s|
  {
    if |s| == 0 then ""
    else if IsPrefix(pat, s) then rep + ReplaceAll(s[|pat|..], pat, rep)
    else [s[0]] + ReplaceAll(s[1..], pat, rep)
  }

  /** Python's `"".join(ws)`. */
  function Join(ws: seq<string>): (r: string)
    ensures |ws| == 1 ==> r == ws[0]
  {
    if |ws| == 0 then "" else Join(ws[..|ws| - 1]) + ws[|ws| - 1]
  }

  /** Joining two token lists one after the other is joining each and
      concatenating the results. */
  lemma {:induction false} JoinAppend(a: seq<string>, b: seq<string>)
    ensures Join(a + b) == Join(a) + Join(b)
    decreases |b|
  {
    if |b| > 0 {
      JoinAppend(a, b[..|b| - 1]);
      assert (a + b)[..|a + b| - 1] == a + b[..|b| - 1];
    } else {
      assert a + b == a;
    }
  }

  /** Replacing a pattern that does not occur changes nothing. */
  lemma {:induction false} ReplaceAllIdentity(s: string, pat: string, rep: string)
    requires |pat| > 0 && !Contains(s, pat)
    ensures ReplaceAll(s, pat, rep) == s
    decreases |s|
  {
    if |s| > 0 {
      ReplaceAllIdentity(s[1..], pat, rep);
    }
  }

  /** `t` is the slice of `s` starting at position `k`. */
  predicate OccursAt(s: string, t: string, k: nat)
  {
    k + |t| <= |s| && s[k..k + |t|] == t
  }

  /** An occurrence in the tail at `k` is an occurrence in the text at `k + 1`. */
  lemma OccursShift(s: string, t: string, k: nat)
    requires |s| > 0
    ensures OccursAt(s[1..], t, k) <==> OccursAt(s, t, k + 1)
  {
    if k + |t| <= |s[1..]| {
      assert s[1..][k..k + |t|] == s[k + 1..k + 1 + |t|];
    }
  }

  /** `Contains` agrees with the positional reading of `t in s`: `t` is the
      slice of `s` starting at some position. */
  lemma {:induction false} ContainsAt(s: string, t: string)
    ensures Contains(s, t) <==> exists k: nat :: OccursAt(s, t, k)
    decreases |s|
  {
    if |s| > 0 {
      ContainsAt(s[1..], t);
      if Contains(s[1..], t) {
        var k: nat :| OccursAt(s[1..], t, k);
        OccursShift(s, t, k);
      }
      if k: nat :| 0 < k && OccursAt(s, t, k) {
        OccursShift(s, t, k - 1);
      }
      if OccursAt(s, t, 0) {
        assert IsPrefix(t, s);
      }
    } else if Contains(s, t) {
      assert OccursAt(s, t, 0);
    }
  }

  /** Where the pattern occurs, its replacement occurs in the result. */
  lemma {:induction false} ReplaceAllInserts(s: string, pat: string, rep: string)
    requires |pat| > 0 && Contains(s, pat)
    ensures Contains(ReplaceAll(s, pat, rep), rep)
    decreases |s|
  {
    var r := ReplaceAll(s, pat, rep);
    if IsPrefix(pat, s) {
      assert r[..|rep|] == rep;
    } else {
      ReplaceAllInserts(s[1..], pat, rep);
      assert r[1..] == ReplaceAll(s[1..], pat, rep);
    }
  }

  /** A one-character pattern occurs exactly when that character does. */
  lemma {:induction false} ContainsChar(s: string, c: char)
    ensures Contains(s, [c]) <==> c in s
    decreases |s|
  {
    if |s| > 0 {
      ContainsChar(s[1..], c);
      assert s == [s[0]] + s[1..];
    }
  }

  /** Replacing a character by text that does not hold it leaves none behind. */
  lemma {:induction false} ReplaceAllRemovesChar(s: string, c: char, rep: string)
    requires c !in rep
    ensures c !in ReplaceAll(s, [c], rep)
    decreases |s|
  {
    if |s| > 0 {
      if IsPrefix([c], s) {
        ReplaceAllRemovesChar(s[1..], c, rep);
      } else {
        ReplaceAllRemovesChar(s[1..], c, rep);
        assert s[0] != c;
      }
    }
  }

  /** When the replacement is a single character the text lacks, that
      character shows up in the result exactly when the pattern occurred. */
  lemma {:induction false} ReplaceAllMarks(s: string, pat: string, c: char)
    requires |pat| > 0 && c !in s
    ensures c in ReplaceAll(s, pat, [c]) <==> Contains(s, pat)
    decreases |s|
  {
    if |s| > 0 {
      if IsPrefix(pat, s) {
        assert ReplaceAll(s, pat, [c])[0] == c;
      } else {
        assert c !in s[1..];
        ReplaceAllMarks(s[1..], pat, c);
        assert ReplaceAll(s, pat, [c]) == [s[0]] + ReplaceAll(s[1..], pat, [c]);
      }
    } else {
      assert !IsPrefix(pat, s);
    }
  }

  /** Replacing `pat` by a fresh character `c` is undone by replacing `c` by `pat`. */
  lemma {:induction false} ReplaceAllUndone(s: string, pat: string, c: char)
    requires |pat| > 0 && c !in s
    ensures ReplaceAll(ReplaceAll(s, pat, [c]), [c], pat) == s
    decreases |s|
  {
    if |s| > 0 {
      var once := ReplaceAll(s, pat, [c]);
      if IsPrefix(pat, s) {
        var rest := s[|pat|..];
        assert c !in rest by { assert forall k :: 0 <= k < |rest| ==> rest[k] == s[|pat| + k]; }
        ReplaceAllUndone(rest, pat, c);
        assert once == [c] + ReplaceAll(rest, pat, [c]);
        assert IsPrefix([c], once);
        assert once[1..] == ReplaceAll(rest, pat, [c]);
        assert s == pat + rest;
      } else {
        assert c !in s[1..];
        ReplaceAllUndone(s[1..], pat, c);
        assert once == [s[0]] + ReplaceAll(s[1..], pat, [c]);
        assert !IsPrefix([c], once) by { assert once[0] == s[0] != c; }
        assert once[1..] == ReplaceAll(s[1..], pat, [c]);
        assert s == [s[0]] + s[1..];
      }
    }
  }

  /** Text before the first `c` is copied through unchanged. */
  lemma {:induction false} ReplaceAllCopies(s: string, c: char, pat: string, k: nat)
    requires k <= |s| && c !in s[..k]
    ensures ReplaceAll(s, [c], pat) == s[..k] + ReplaceAll(s[k..], [c], pat)
    decreases k
  {
    if k > 0 {
      assert !IsPrefix([c], s) by { assert s[0] in s[..k]; }
      assert c !in s[1..][..k - 1] by { assert forall j :: 0 <= j < k - 1 ==> s[1..][j] == s[..k][j + 1]; }
      ReplaceAllCopies(s[1..], c, pat, k - 1);
      assert s[..k] == [s[0]] + s[1..][..k - 1];
      assert s[1..][k - 1..] == s[k..];
    }
  }

  /** Replacing a character `c` by a pattern whose first character does not
      recur in it cannot create an occurrence of the pattern at the front,
      unless the text itself started with `c` or with the pattern. */
  lemma NoNewPrefix(s: string, c: char, pat: string)
    requires |pat| > 0 && c !in pat && pat[0] !in pat[1..]
    requires |s| > 0 && s[0] != c && !IsPrefix(pat, s)
    ensures !IsPrefix(pat, ReplaceAll(s, [c], pat))
  {
    var k := 0;
    while k < |s| && s[k] != c
      invariant 0 <= k <= |s| && c !in s[..k]
    {
      assert s[..k + 1] == s[..k] + [s[k]];
      k := k + 1;
    }
    ReplaceAllCopies(s, c, pat, k);
    var r := ReplaceAll(s, [c], pat);
    if k == |s| {
      assert s[k..] == [];
      assert r == s;
    } else {
      var rest := s[k..];
      assert IsPrefix([c], rest);
      assert r == s[..k] + (pat + ReplaceAll(rest[1..], [c], pat));
      if k < |pat| {
        assert r[k] == pat[0];
        assert pat[k] != pat[0] by { assert pat[k] in pat[1..]; }
      } else {
        assert r[..|pat|] == s[..|pat|];
      }
    }
  }

  /** Replacing `c` by `pat` and then `pat` by `c` gives back the text, when
      the text holds no `pat` of its own and `pat` cannot overlap itself
      across a replaced `c`. */
  lemma {:induction false} ReplaceAllRestored(s: string, c: char, pat: string)
    requires |pat| > 0 && c !in pat && pat[0] !in pat[1..] && !Contains(s, pat)
    ensures ReplaceAll(ReplaceAll(s, [c], pat), pat, [c]) == s
    decreases |s|
  {
    if |s| > 0 {
      var once := ReplaceAll(s, [c], pat);
      ReplaceAllRestored(s[1..], c, pat);
      if s[0] == c {
        assert IsPrefix([c], s);
        assert once == pat + ReplaceAll(s[1..], [c], pat);
        assert IsPrefix(pat, once);
        assert once[|pat|..] == ReplaceAll(s[1..], [c], pat);
      } else {
        assert !IsPrefix([c], s);
        NoNewPrefix(s, c, pat);
        assert once[1..] == ReplaceAll(s[1..], [c], pat);
      }
      assert s == [s[0]] + s[1..];
    }
  }
}

=== FILE: words.dfy ===
/** Post-processing of the content words pulled from a request text:
    the first/second-person pronoun swap, dropping empty words and one 'ん'. */
module Words {
  import opened Text

  const Ore: string := "俺"
  const Omae: string := "おまえ"
  const Nn: string := "ん"

  /** A word holding 俺 gets every 俺 turned into おまえ; otherwise every
      おまえ is turned into 俺. */
  function SwapPronoun(w: string): string
  {
    if Contains(w, Ore) then ReplaceAll(w, Ore, Omae)
    else if Contains(w, Omae) then ReplaceAll(w, Omae, Ore)
    else w
  }

  /** First person becomes second person: no 俺 is left, and some おまえ is there. */
  lemma FirstPersonSwapped(w: string)
    requires Contains(w, Ore)
    ensures !Contains(SwapPronoun(w), Ore)
    ensures '俺' !in SwapPronoun(w)
    ensures Contains(SwapPronoun(w), Omae)
  {
    ReplaceAllRemovesChar(w, '俺', Omae);
    ContainsChar(SwapPronoun(w), '俺');
    ReplaceAllInserts(w, Ore, Omae);
  }

  /** A word holding 俺 but no おまえ comes back when every おまえ is turned
      back into 俺. */
  lemma FirstPersonRestored(w: string)
    requires Contains(w, Ore) && !Contains(w, Omae)
    ensures ReplaceAll(SwapPronoun(w), Omae, Ore) == w
  {
    ReplaceAllRestored(w, '俺', Omae);
  }

  /** A word without 俺 gains a 俺 exactly when it held おまえ, and turning
      that 俺 back into おまえ restores the word. */
  lemma SecondPersonSwapped(w: string)
    requires !Contains(w, Ore)
    ensures Contains(SwapPronoun(w), Ore) <==> Contains(w, Omae)
    ensures ReplaceAll(SwapPronoun(w), Ore, Omae) == w
  {
    ContainsChar(w, '俺');
    ReplaceAllMarks(w, Omae, '俺');
    ContainsChar(ReplaceAll(w, Omae, Ore), '俺');
    ReplaceAllUndone(w, Omae, '俺');
    if !Contains(w, Omae) {
      ContainsChar(w, '俺');
      ReplaceAllIdentity(w, Ore, Omae);
    }
  }

  /** `filter(None, ws)`: the empty strings dropped, order kept. */
  function NonEmpty(ws: seq<string>): (r: seq<string>)
    ensures "" !in r
    ensures multiset(r) == multiset(ws)["" := 0]
  {
    if |ws| == 0 then []
    else
      assert ws == ws[..|ws| - 1] + [ws[|ws| - 1]];
      NonEmpty(ws[..|ws| - 1]) + (if ws[|ws| - 1] == "" then [] else [ws[|ws| - 1]])
  }

  /** `list.remove(x)` guarded by `x in list`: the first `x` is dropped, if any. */
  function RemoveFirst(ws: seq<string>, x: string): (r: seq<string>)
    ensures multiset(r) == multiset(ws) - multiset{x}
    ensures x in ws ==> |r| == |ws| - 1
    ensures x !in ws ==> r == ws
  {
    if |ws| == 0 then []
    else if ws[0] == x then
      assert ws == [ws[0]] + ws[1..];
      ws[1..]
    else
      assert ws == [ws[0]] + ws[1..];
      [ws[0]] + RemoveFirst(ws[1..], x)
  }

  /** The pronoun swap applied to every word, in order. */
  function Swapped(ws: seq<string>): (r: seq<string>)
    ensures |r| == |ws|
  {
    if |ws| == 0 then [] else Swapped(ws[..|ws| - 1]) + [SwapPronoun(ws[|ws| - 1])]
  }

  /** Entry i of the swapped list is the swap of base form i. */
  lemma {:induction false} SwappedEach(ws: seq<string>)
    ensures forall i :: 0 <= i < |ws| ==> Swapped(ws)[i] == SwapPronoun(ws[i])
  {
    if |ws| > 0 {
      var n := |ws| - 1;
      SwappedEach(ws[..n]);
      assert Swapped(ws) == Swapped(ws[..n]) + [SwapPronoun(ws[n])];
    }
  }

  /** The candidate words before the shuffle. */
  function Cleaned(baseForms: seq<string>): seq<string>
  {
    RemoveFirst(NonEmpty(Swapped(baseForms)), Nn)
  }

  /** What the clean-up keeps: each swapped non-empty word as often as it came,
      except that one 'ん' fewer is kept when there was one. */
  lemma CleanedCounts(baseForms: seq<string>, w: string)
    ensures multiset(Cleaned(baseForms))[w] ==
      if w == "" then 0
      else if w == Nn && multiset(Swapped(baseForms))[w] > 0 then multiset(Swapped(baseForms))[w] - 1
      else multiset(Swapped(baseForms))[w]
  {
  }
}
